=== FILE: README.md ===
# Nevi in Dafny

A model of Nevi, a small PHP helper library for a church-scheduling web
application. The model covers its five classes:

- `Database` is a thin PDO wrapper. The model runs its SELECT, INSERT, UPDATE
  and DELETE helpers over an in-memory table.
- `Auth` handles login with an optional ten-year remember-me cookie, the
  `is_logged_in` gate (cookie first, then the session and its MFA flag), and
  logout.
- `Log` covers client IP selection, the operating-system and browser
  classification of the `User-Agent`, the Bootstrap alert markup of
  `errorMessage`, and the row `logAction` appends to `logs`.
- `Nevi` is `time_ago`, the "n units ago" phrase.
- `User` covers the user lookup, the count of upcoming events a user can
  attend, and the start of password recovery.

Modules:

- `Results` holds `Option` and `Result`.
- `Text` holds join and split, decimal and hex text, and substring predicates.
- `Database`, `Auth`, `Log`, `Nevi` and `User` each model the PHP file of the
  same name.

A table is a sequence of rows. A row maps column names to text, and a column
missing from a row is SQL NULL. A WHERE expression carries both its SQL text
and the row predicate it denotes. Each database call returns the prepared
statement (SQL text and bound values) together with its result. Session,
cookies, `time()`, `random_bytes`, `getenv`, the `User-Agent` header,
`password_verify`, `strtotime` and the outcome of sending mail are all
parameters.

Some behaviours of the code are easy to miss. The model follows the code in
each of them:

- `pdoArrayQuery` builds its map with PHP's `+=`. That operator never
  replaces a key that is already present, so each key keeps the value of the
  FIRST row that produced it, not the last.
- In `get_total_registered_events`, `$serviceStartTime` and `$serviceEndTime`
  survive from one event to the next. An event whose service lookup fails
  therefore inherits the previous event's values (`User.StaleServiceEnd`).
- PHP 8 `"" + 7200` raises a `TypeError`. A service whose `endTime` is `""`
  and that has no start time therefore ends the request
  (`User.EmptyServiceEndFaults`).
- `initiate_password_recovery` ignores the value `send()` returns, so a mail
  that was not sent is still logged as succeeded. Its `catch (Exception $e)`
  does not catch the mailer's exception; see "Findings" below.

## Model

| member | source | states |
|---|---|---|
| Text.SplitJoin | src/Database.php:110-111 | splitting an `implode` result on a separator that occurs in no part gives back the parts |
| Text.DecimalRoundTrip | src/Nevi.php:44 | the decimal text of a count reads back as the same count |
| Text.HexRoundTrip | src/Auth.php:27 | `bin2hex` is invertible: the hex text decodes to the original bytes |
| Text.Bin2Hex | src/Auth.php:27 | `bin2hex` output has two lower-case hex digits per byte |
| Database.Bind | src/Database.php:115-119 | the bound positions are exactly 1..n, and position i+1 holds value i |
| Database.SelectSql | src/Database.php:36 | the statement is `SELECT selector FROM table WHERE ` with the WHERE text pasted in verbatim at the end |
| Database.InsertSql | src/Database.php:108-113 | the statement names the table and the joined columns, then ends with the placeholder list in parentheses |
| Database.UpdateSql | src/Database.php:155-165 | the statement is the SET assignments followed by the WHERE text pasted in verbatim at the end |
| Database.DeleteSql | src/Database.php:188 | the statement is `DELETE FROM table WHERE ` with the WHERE text pasted in verbatim at the end |
| Database.PlaceholderCount | src/Database.php:111 | the placeholder list holds exactly one `?` per column |
| Database.InsertSqlPlaceholders | src/Database.php:110-113 | the INSERT statement has as many `?` as columns when no name contains `?` |
| Database.InsertColumnList | src/Database.php:110 | the column list splits back into the columns |
| Database.PlaceholderFields | src/Database.php:111 | the placeholder list is n comma-separated `?` |
| Database.SetClauseFields | src/Database.php:155-163 | the SET clause is one `c=?` per column, in order |
| Database.UpdateSqlPlaceholders | src/Database.php:155-165 | the UPDATE statement has one `?` per assigned column |
| Database.CountCharJoin | src/Database.php:111 | joining n parts that each hold k copies of a character (absent from the separator) gives k·n copies |
| Database.First | src/Database.php:36-38 | `fetch()` gives nothing exactly when no row matches, else the earliest matching row |
| Database.FirstIndex | src/Database.php:36-38 | the index of the earliest matching row, or -1 when none matches |
| Database.Filter | src/Database.php:94 | `fetchAll()` keeps every matching row with its multiplicity and nothing else |
| Database.FilterAppend | src/Database.php:94 | the matching rows come back in table order |
| Database.FilterAll | src/Database.php:138 | all rows come back exactly when every row matches |
| Database.FilterNone | src/Database.php:138 | no row comes back exactly when no row matches |
| Database.Assign | src/Database.php:157-165 | SET assignments add the assigned columns, keep the others, and the last assignment to a column wins |
| Database.UpdateRows | src/Database.php:165-173 | the matching rows get the assignments; the other rows are untouched |
| Database.PdoQuery | src/Database.php:34-40 | the statement is the SELECT with the WHERE text; nothing is bound; the result is false exactly when no row matches, else the first match |
| Database.PdoWhileQuery | src/Database.php:81-96 | type "table" selects every row with no WHERE; otherwise the statement is the SELECT with the WHERE text and the result is exactly the matching rows in table order |
| Database.PdoNumRows | src/Database.php:134-140 | the statement is the SELECT with the WHERE text; the count is the number of matching rows, so 0 exactly when nothing matches and the table size exactly when everything matches |
| Database.PdoInsertQuery | src/Database.php:108-122 | the statement is the INSERT over the columns; the values bind to 1..n; it fails on a value-count mismatch or a repeated column; on success it appends one row holding exactly the listed columns with their values |
| Database.PdoUpdate | src/Database.php:153-175 | the statement is the UPDATE over the columns with the WHERE text; the values bind to 1..n; it fails on a count mismatch or an empty SET; on success each matching row gets the values, gains exactly the assigned columns and keeps the rest; the other rows do not change |
| Database.PdoDelete | src/Database.php:186-191 | no surviving row matches, and the non-matching rows all survive with their multiplicity |
| Database.DeleteKeepsOrder | src/Database.php:186-191 | deletion keeps the relative order of the surviving rows |
| Database.CountAndDeletePartition | src/Database.php:134-140 | the rows `pdoNumRows` counts plus the rows `pdoDelete` keeps make up the whole table |
| Database.KeyedFirst | src/Database.php:62-64 | every row's key is in the map, no other key is, and each key maps to the first row that produced it |
| Database.PdoArrayQuery | src/Database.php:54-68 | the statement is the SELECT with the WHERE text and binds nothing; the array is keyed by the matching rows' index column, first row wins |
| Auth.NextCookie | src/Auth.php:29 | a browser keeps its cookie when nothing is sent; a sent cookie is kept exactly when it is non-empty and not yet expired, and then holds the sent value |
| Auth.Login | src/Auth.php:16-40 | accepted exactly when a user with that name exists and the password verifies; a rejection changes nothing; acceptance binds the session to that row's id; remember-me writes a fresh 32-digit hex token to exactly that id's rows, adding only the `remember_token` column, and sets it in a cookie for 315360000 seconds |
| Auth.StoreRememberToken | src/Auth.php:28 | every row with the id gets the token and gains only the `remember_token` column; every other row is untouched |
| Auth.IsLoggedIn | src/Auth.php:42-72 | a cookie that some row holds authenticates at once as the first such row; otherwise a logged-in session passes, or goes to `verify` when MFA is pending; without a session it redirects to `assets/includes/logout` |
| Auth.CookieBypassesMfa | src/Auth.php:44-58 | a matching cookie authenticates whatever the session's MFA flag says |
| Auth.Logout | src/Auth.php:74-86 | the session is emptied, a sent cookie is answered by a `setcookie` call with an empty value and an expiry an hour back, the users table is untouched, and the request redirects to `../../login` |
| Auth.LogoutThenCheck | src/Auth.php:74-86 | after logout the browser sends no cookie and `is_logged_in` redirects to the logout route |
| Auth.StoredTokenIdentifiesOwner | src/Auth.php:28 | a previously unused token written to the rows of id u is held by exactly those rows, and looking it up yields id u |
| Auth.RememberLoginWrites | src/Auth.php:25-31 | a successful remember-login stores the token on the user's rows and the token now identifies that user |
| Auth.CookieReturns | src/Auth.php:44-51 | a token that some row holds, presented before it expires, authenticates as that row's id |
| Auth.RememberRoundTrip | src/Auth.php:25-51 | a fresh browser session that carries only the remember cookie authenticates as the user who logged in |
| Auth.ReplayAfterLogout | src/Auth.php:74-86 | logout leaves `remember_token` in the table, so a captured token still authenticates its owner |
| Auth.SecondRememberLoginRevokesFirst | src/Auth.php:27-29 | a second remember-login of the same user overwrites the first token, which then authenticates no one |
| Auth.OverwrittenTokenUnused | src/Auth.php:28 | writing a second token to the same id's rows leaves no row holding an unused first token |
| Log.FirstTruthy | src/Log.php:17-45 | none exactly when no listed variable is truthy, else the first truthy variable's value |
| Log.GetIp | src/Log.php:13-49 | the first truthy of the six variables, in source order, else `UNKNOWN` |
| Log.IpPriority | src/Log.php:17-39 | `HTTP_CLIENT_IP` beats everything; `REMOTE_ADDR` is used only when all five proxy headers are falsy |
| Log.Scan | src/Log.php:81-88 | the foreach over the patterns returns the name of the LAST matching pattern, or the default; it never returns anything else |
| Log.GetOs | src/Log.php:51-90 | the platform is one of the table's names or `Unknown OS Platform`, and it is the default when no pattern matches |
| Log.GetBrowser | src/Log.php:92-124 | the browser is one of the table's names or `Unknown Browser`, and it is the default when no pattern matches |
| Log.OsLastMatchWins | src/Log.php:51-90 | Android beats Linux unless BlackBerry or webOS also match; webOS gives `Mobile`; no match gives the default |
| Log.BrowserLastMatchWins | src/Log.php:92-124 | `mobile` anywhere gives `Handheld`; Chrome beats Safari when no later pattern matches; no match gives the default |
| Log.DotIsWildcard | src/Log.php:57 | the unescaped `.` of `windows nt 6.3` matches any character but a newline |
| Log.AlertColor | src/Log.php:138-142 | the colour is one of success, warning or danger, and equals the type exactly when the type is one of them |
| Log.ErrorMessage | src/Log.php:136-144 | every alert opens with the box head in the type's colour (danger for an unknown type) and ends with the tail, which carries the close button when dismissible |
| Log.AlertBodyShowsMessage | src/Log.php:139-142 | the alert text always holds the message, and for an unknown type it also names the type |
| Log.BoxParts | src/Log.php:139-142 | the box starts with its opening markup, ends with its closing markup and contains the body |
| Log.DismissibleHead | src/Log.php:139 | the dismissible opening markup carries `alert-dismissible` |
| Log.ErrorMessageShape | src/Log.php:136-144 | the alert opens with the colour's markup and closes with the (dismissible) tail; it shows the message; when dismissible it carries `alert-dismissible`; an unknown type is named |
| Log.NormalisePage | src/Log.php:161-174 | exactly the thirteen listed page names are accepted; `categories` becomes `category`, `events` and `viewInfo` become `event`, the other plurals lose their trailing "s", and `login`, `logout`, `permissions`, `roles` and `settings` stay as they are |
| Log.ActionVerb | src/Log.php:176-183 | exactly the seven listed actions are accepted; login and logout map to `Log`, the others are capitalised |
| Log.Description | src/Log.php:185-189 | the description starts with the verb, ends "user in" or "user out" for login or logout, and otherwise names the page and the custom message |
| Log.Describe | src/Log.php:161-189 | an unlisted page or action raises the match error; otherwise it gives the normalised page and its description |
| Log.LogAction | src/Log.php:157-193 | fails exactly on an unlisted page or action; otherwise appends one row holding the nine values under their columns and binds nine values |
| Log.LogActionRow | src/Log.php:191 | the appended row records the normalised page, the action, the status, the client IP and the actor's id |
| Log.LogActionDescribesSession | src/Log.php:185-187 | a login or logout entry's description ends with "user in" or "user out" |
| Log.LogColumnsDistinct | src/Log.php:191 | the nine log columns are distinct, so the insert cannot fail on a repeated column |
| Log.LogInsertPlaceholders | src/Log.php:191 | the log INSERT has nine placeholders |
| Nevi.TimeAgo | src/Nevi.php:21-48 | under one second gives the fixed phrase; otherwise the longest unit that fits, with the rounded count and a plural "s" above one |
| Nevi.RoundHalfUp | src/Nevi.php:43 | `round(a/b)` is the nearest whole number, halves rounded up |
| Nevi.UnitsDescending | src/Nevi.php:27-35 | the units strictly decrease and end at one second, so the loop always returns |
| Nevi.LongestFitUnique | src/Nevi.php:37-46 | the unit the loop picks is uniquely determined |
| Nevi.CountAtLeastOne | src/Nevi.php:39-43 | the chosen unit never shows a count of zero |
| Nevi.ExactCount | src/Nevi.php:39-43 | an exact multiple of a unit shows that multiple |
| Nevi.PhraseFields | src/Nevi.php:44 | the phrase is count, unit and "ago" separated by spaces, and the count reads back |
| Nevi.PluralExactlyAboveOne | src/Nevi.php:44 | the unit is pluralised exactly when the count is above one |
| Nevi.UnitNamesPlain | src/Nevi.php:28-34 | no unit name has a space or a trailing "s" |
| User.GetUserInfo | src/User.php:7-14 | false exactly when no user has the id; otherwise the first row with that id |
| User.GetUserInfoUnique | src/User.php:7-14 | with unique ids, the lookup returns the one row with that id |
| User.AddSeconds | src/User.php:60 | `+= 7200` on null gives 7200 and on an int adds; on a string it raises a TypeError |
| User.LookupService | src/User.php:33-38 | a found service overwrites both carried variables; a missing one leaves them as they were |
| User.EventEnd | src/User.php:31-75 | every path that does not fault leaves an integer end time |
| User.ExplicitEndWins | src/User.php:40-42 | an event's own `endTime` always decides its end |
| User.TwoHoursFromStart | src/User.php:63-75 | without a service or an end, the event ends two hours after its start |
| User.ServiceTimesFallBack | src/User.php:44-60 | with no event end time, a found service's non-empty end is used whatever the event's start; with no event start and an empty or NULL service end, the service's start plus two hours |
| User.ServiceEventStartPlusTwoHours | src/User.php:44-60 | with a service and no end time anywhere, an event that has a start time ends two hours after it |
| User.ServiceWithoutTimes | src/User.php:54-60 | a found service with a NULL end and an empty or NULL start, for an event without times, gives the end 7200 (seconds after the epoch) |
| User.FirstEventMissingService | src/User.php:24-60 | the first event, with a failed service lookup and no times, gives the end 7200 |
| User.EmptyServiceEndFaults | src/User.php:54-60 | a service with an empty end and no start makes `+=` raise a TypeError |
| User.StaleServiceEnd | src/User.php:33-46 | a failed service lookup reuses the end time the previous event left |
| User.AttendanceStatus | src/User.php:77-85 | the `attendanceStatus` of the first schedule row for the user and the event; empty when no row matches |
| User.Counts | src/User.php:87 | the event counts when the user can attend, it is dated today or later, and it has not yet ended |
| User.Visit | src/User.php:24-91 | one loop iteration faults exactly when the end-time computation does, carries on its result, and counts only events the user can attend |
| User.Tally | src/User.php:22-92 | the reference count never exceeds the number of events |
| User.CountEvents | src/User.php:22-92 | the loop computes the reference count, stopping at the first fault |
| User.TotalRegisteredEvents | src/User.php:16-95 | the result is the reference count over the upcoming events and at most their number |
| User.FetchedAreUpcoming | src/User.php:22 | every fetched event is dated today or later |
| User.NotAttendingNotCounted | src/User.php:87 | an event the user has no `can` row for is never counted |
| User.TallyNeverCounting | src/User.php:87-91 | a loop body that never counts gives a total of zero |
| User.NoCanNoCount | src/User.php:77-91 | a user with no `can` row anywhere has zero registered events |
| User.TallyAppend | src/User.php:22-92 | counting a concatenation counts the first part and then the rest from the carried state |
| User.StoreToken | src/User.php:110 | every row with the email gets the token, gains only the `token` column and keeps its other columns; the other rows are untouched |
| User.StoreTokenIsUpdate | src/User.php:110 | the stored table is exactly what the `pdoUpdate` call leaves |
| User.LogMailAttempt | src/User.php:124-129 | one `settings`/`email` log row is appended after the old ones, marked succeeded or failed |
| User.SentAlert | src/User.php:125 | the dismissible warning with the sent notice |
| User.FailedAlert | src/User.php:130 | the dismissible danger alert with the mailer's error |
| User.InitiatePasswordRecovery | src/User.php:97-133 | the token goes to every row sharing the user's email whatever the mail does; when `send()` returns, true or false, one log row says succeeded and the sent notice is returned; a thrown mailer exception escapes with the log unchanged |
| User.InitiatePasswordRecoveryIntended | src/User.php:97-133 | with the exception caught, one log row always follows, failed exactly when the mailer threw, and the alert is the failure alert with the error exactly then |
| User.UncaughtMailerException | src/User.php:112-132 | the code as written and the intended code agree whenever `send()` returns, and part on a thrown exception: one escapes without a log row, the other logs and answers |
| User.RecoveryToken | src/User.php:101 | the token is 64 lower-case hex digits that decode to the 32 random bytes |
| User.TokenWrittenBeforeMail | src/User.php:110-122 | the users table is the same whatever the mailer does |
| User.RecoveryAlert | src/User.php:125-130 | the sent alert is a dismissible warning with the notice; the failure alert is a dismissible danger alert containing the mailer's error |
| User.UnknownUserTouchesBlankEmails | src/User.php:102-110 | an unknown id looks up the empty email, so every row with an empty email gets the token |

## Left out

- The PDO connection, `die` on connection failure, and SQL parsing are not modelled. A WHERE expression is given as text plus the row predicate it denotes. The selector is not applied: every query returns whole rows.
- SQL errors other than a bind-count mismatch, an empty SET clause and a repeated INSERT column are not modelled, for example unknown columns or tables.
- Session storage, cookies, headers and `exit` are modelled as explicit state and outcome values, not as side effects. A cookie change is recorded as the arguments of the `setcookie` call, not as the header PHP sends (for an empty value PHP sends `deleted` with an expiry in 1970 and `Max-Age=0`). Both make the browser drop the cookie.
- `password_verify`, `strtotime` and MySQL `UNIX_TIMESTAMP` are uninterpreted parameters. One total function stands for both time conversions, which assumes they agree on the server's timezone. `strtotime` returning `false` is not modelled.
- `time()`, `random_bytes`, `getenv`, the `User-Agent` header and `$fullDateTime` are inputs.
- PCRE is reduced to what the patterns use: case-insensitive ASCII literal matching, `.` as a wildcard, and one `|`.
- Without the `/u` flag PCRE matches bytes, so `.` matches a single byte of a multi-byte UTF-8 character. The model's `.` matches one whole character.
- MySQL's default collation compares text case-insensitively and ignores trailing spaces. The model's `ColumnIs` is exact equality.
- Values interpolated into a WHERE text (Auth.php:18 and :46, User.php:110) are not escaped. A `'` in a username, a cookie or an email rewrites the condition (SQL injection). The model pairs each WHERE text with the predicate the code intends and does not parse the text.
- Database.PdoInsertQuery: the appended row holds exactly the listed columns. Column defaults, AUTO_INCREMENT ids and other values MySQL fills in are not modelled.
- Auth.LogoutThenCheck: neither `setcookie` call names a path, so each cookie gets the directory of the script that set it, and the logout script lives under `assets/includes/`. The model has one cookie jar without paths, so it assumes the expiring cookie of line 80 replaces the one set at line 29.
- Auth.RememberRoundTrip: assumes, for the same reason, that the page checking the cookie lies under the path the login page set it for.
- Nevi.TimeAgo: `round` of a float quotient is modelled as exact half-up integer division. Float precision loss for differences above 2^53 seconds is ignored.
- PHPMailer, the email template, output buffering and the mail subject are left out. Only the outcome is an input: `send()` returned true, returned false, or threw with an `ErrorInfo`.
- PHP's leading-numeric string arithmetic, such as `"10:00" + 7200`, is not modelled. The code never reaches it: the carried end time is the operand of `+=` only when it is NULL or `""`. AddSeconds therefore requires an int or an empty operand.
- User.EventEnd: states only that a non-faulting path yields an integer end. The individual paths are stated by ExplicitEndWins, TwoHoursFromStart, ServiceEventStartPlusTwoHours, ServiceTimesFallBack, ServiceWithoutTimes, FirstEventMissingService, EmptyServiceEndFaults and StaleServiceEnd. Together they cover every path the loop reaches from the unset variables. A failed lookup that finds a carried text end time, or a carried non-empty start with an empty end, is not stated: every successful iteration leaves an integer end, so the loop never carries those.
- User.GetUserInfo: states the row returned, not the SQL text of the query.
- User.InitiatePasswordRecovery: the token rows are stated through StoreToken's contract, and the logged row through LogMailAttempt's. The html is stated as SentAlert's or FailedAlert's value, whose shape RecoveryAlert gives.
- Log.ErrorMessageShape: does not state that a non-dismissible alert lacks `alert-dismissible`.
- Log.LogAction: states the inserted row column by column through the nine values of LogValues. The OS and browser values are GetOs and GetBrowser of the header.
- Database.PdoWhileQuery: when no `$expression` is passed, the statement ends in `WHERE ` followed by nothing. The model treats this like any other WHERE text. MySQL rejects a WHERE with no condition as a syntax error, so in the source `prepare` or `execute` throws a `PDOException`; the model does not produce that error.
- Concurrency between requests is not modelled.

## Findings

| source | as written | input that shows it | evidently intended | confidence | as-written member | corrected member |
|---|---|---|---|---|---|---|
| src/User.php:127 | the file declares `namespace Bubbycolditz\Nevi;` and imports nothing, so `catch (Exception $e)` names the nonexistent `Bubbycolditz\Nevi\Exception` and catches nothing | the mailer throws from `send()`: the exception escapes, the token stays written, nothing is logged and no alert is returned | catch the global `\Exception` (or PHPMailer's exception), log the attempt as failed and return the danger alert with `ErrorInfo` | not executed | User.InitiatePasswordRecovery, User.UncaughtMailerException | User.InitiatePasswordRecoveryIntended |

=== FILE: auth.dfy ===
/** The `Auth` class as a state machine over explicit request state: the
    `users` table, the server-side session and the incoming `remember_me`
    cookie. Each operation returns its verdict and its effects (the
    `Set-Cookie` header it emits, the redirect it ends the request with)
    as data. */
module Auth {
  import opened Results
  import opened Text
  import opened Database

  /** `10 * 365 * 24 * 60 * 60`: the remember-me cookie's lifetime in seconds. */
  const RememberLifetime: int := 315360000

  /** How far in the past `logout` dates the expired cookie. */
  const ExpiredBy: int := 3600

  const VerifyRoute: string := "verify"
  const LogoutRoute: string := "assets/includes/logout"
  const LoginRoute: string := "../../login"

  /** `$_SESSION`: `logged_in`, `user_id`, `mfa_required` (an unset flag is false). */
  datatype Session = Session(loggedIn: bool, userId: Option<Value>, mfaRequired: bool)

  /** The session after `session_destroy`. */
  const EmptySession: Session := Session(false, None, false)

  /** The arguments of a `setcookie('remember_me', value, expires)` call. */
  datatype SetCookie = SetCookie(value: string, expires: int)

  /** The state one request sees: the users table, the session, and
      `$_COOKIE['remember_me']` if the browser sent one. */
  datatype State = State(users: Table, session: Session, rememberMe: Option<string>)

  datatype LoginOutcome = LoginOutcome(ok: bool, state: State, cookie: Option<SetCookie>)

  /** `is_logged_in` either returns true or sends `Location:` and exits. */
  datatype Verdict = Authenticated | Redirect(location: string)

  datatype CheckOutcome = CheckOutcome(verdict: Verdict, session: Session)

  datatype LogoutOutcome = LogoutOutcome(state: State, cookie: Option<SetCookie>, location: string)

  /** `password_verify(plaintext, storedHash)`, left uninterpreted. */
  type PasswordVerify = (string, string) -> bool

  function UsernameIs(username: string): Where
  {
    ColumnIs("username", username)
  }

  function IdIs(id: Value): Where
  {
    ColumnIs("id", id)
  }

  function RememberTokenIs(token: string): Where
  {
    ColumnIs("remember_token", token)
  }

  /** Every user row has an `id` (the table's primary key is never NULL). */
  predicate WellFormedUsers(users: Table)
  {
    forall i :: 0 <= i < |users| ==> "id" in users[i]
  }

  /** No user row holds `token` as its remember token. */
  predicate TokenUnused(users: Table, token: string)
  {
    forall i :: 0 <= i < |users| ==> !Eq("remember_token", token)(users[i])
  }

  /** What the browser sends as `remember_me` on its next request, after
      receiving `header` at time `now`: an empty or expired cookie is dropped. */
  function NextCookie(current: Option<string>, header: Option<SetCookie>, now: int): (r: Option<string>)
    ensures header.None? ==> r == current
    ensures header.Some? ==> (r.Some? <==> header.value.value != "" && now < header.value.expires)
    ensures header.Some? && r.Some? ==> r.value == header.value.value
  {
    match header
    case None => current
    case Some(c) => if c.value == "" || c.expires <= now then None else Some(c.value)
  }

  // =====================================================================
  // login

  /** `login($username, $password, $remember)`. `random` is what
      `random_bytes(16)` returned; `now` is `time()`. */
  function Login(s: State, username: string, password: string, remember: bool,
                 now: int, random: seq<Byte>, verify: PasswordVerify): (r: LoginOutcome)
    requires |random| == 16
    // the verdict
    ensures var found := First(s.users, Eq("username", username));
      r.ok <==> found.Some? && verify(password, Cell(found.value, "password"))
    // a rejected login changes nothing and sets no cookie
    ensures !r.ok ==> r.state == s && r.cookie.None?
    // an accepted login binds the session to the matched row's id
    ensures r.ok ==> var found := First(s.users, Eq("username", username));
      r.state.session.loggedIn && r.state.session.userId == Some(Cell(found.value, "id"))
    // the MFA flag and the incoming cookie are never touched
    ensures r.state.session.mfaRequired == s.session.mfaRequired
    ensures r.state.rememberMe == s.rememberMe
    ensures r.ok && !remember ==> r.state.users == s.users && r.cookie.None?
    // remember-me: a fresh 32-digit lower-case hex token, in the cookie for ten years ...
    ensures r.ok && remember ==>
      && r.cookie.Some?
      && |r.cookie.value.value| == 32 && IsLowerHex(r.cookie.value.value)
      && r.cookie.value.expires == now + 315360000
    // ... and in `remember_token` of exactly the rows with the user's id
    ensures r.ok && remember ==>
      var uid := r.state.session.userId.value;
      var token := r.cookie.value.value;
      && |r.state.users| == |s.users|
      && (forall i :: 0 <= i < |s.users| && Eq("id", uid)(s.users[i]) ==> Eq("remember_token", token)(r.state.users[i]))
      && (forall i :: 0 <= i < |s.users| && !Eq("id", uid)(s.users[i]) ==> r.state.users[i] == s.users[i])
      && (forall i :: 0 <= i < |s.users| && Eq("id", uid)(s.users[i]) ==> r.state.users[i].Keys == s.users[i].Keys + {"remember_token"})
      && (forall i, k :: 0 <= i < |s.users| && k in s.users[i] && k != "remember_token" ==> k in r.state.users[i] && r.state.users[i][k] == s.users[i][k])
  {
    var found := PdoQuery(s.users, "users", "*", UsernameIs(username)).result;
    if found.None? || !verify(password, Cell(found.value, "password")) then
      LoginOutcome(false, s, None)
    else
      var uid := Cell(found.value, "id");
      var session := s.session.(loggedIn := true, userId := Some(uid));
      if !remember then
        LoginOutcome(true, s.(session := session), None)
      else
        var token := Bin2Hex(random);
        LoginOutcome(true, State(StoreRememberToken(s.users, uid, token), session, s.rememberMe),
                     Some(SetCookie(token, now + RememberLifetime)))
  }

  /** Line 28: the `pdoUpdate` that writes `token` into `remember_token` of
      every row with id `uid`, adding that column where it was NULL and
      leaving every other column and every other row as it was. */
  function StoreRememberToken(users: Table, uid: Value, token: string): (r: Table)
    ensures |r| == |users|
    ensures forall i :: 0 <= i < |users| && Eq("id", uid)(users[i]) ==> Eq("remember_token", token)(r[i])
    ensures forall i :: 0 <= i < |users| && Eq("id", uid)(users[i]) ==> r[i].Keys == users[i].Keys + {"remember_token"}
    ensures forall i :: 0 <= i < |users| && !Eq("id", uid)(users[i]) ==> r[i] == users[i]
    ensures forall i, k :: 0 <= i < |users| && k in users[i] && k != "remember_token" ==> k in r[i] && r[i][k] == users[i][k]
  {
    var update := PdoUpdate(users, "users", ["remember_token"], [token], IdIs(uid));
    assert NoDuplicates(["remember_token"]);
    SingleColumnSet("remember_token");
    update.result.value
  }

  // =====================================================================
  // is_logged_in

  /** `is_logged_in()`. A cookie that matches some row's remember token
      authenticates at once; only otherwise are the session flags read. */
  function IsLoggedIn(s: State): (r: CheckOutcome)
    // a matching cookie: bind the session to the first such row, return true
    ensures s.rememberMe.Some? && !TokenUnused(s.users, s.rememberMe.value) ==>
      && r.verdict == Authenticated
      && r.session.loggedIn
      && r.session.mfaRequired == s.session.mfaRequired
      && exists i :: 0 <= i < |s.users| && Eq("remember_token", s.rememberMe.value)(s.users[i])
           && r.session.userId == Some(Cell(s.users[i], "id"))
           && forall j :: 0 <= j < i ==> !Eq("remember_token", s.rememberMe.value)(s.users[j])
    // no usable cookie: the session is left as it is and decides
    ensures s.rememberMe.None? || TokenUnused(s.users, s.rememberMe.value) ==>
      && r.session == s.session
      && (s.session.loggedIn && s.session.mfaRequired ==> r.verdict == Redirect("verify"))
      && (s.session.loggedIn && !s.session.mfaRequired ==> r.verdict == Authenticated)
      && (!s.session.loggedIn ==> r.verdict == Redirect("assets/includes/logout"))
  {
    var byCookie := if s.rememberMe.Some? then PdoQuery(s.users, "users", "*", RememberTokenIs(s.rememberMe.value)).result else None;
    if byCookie.Some? then
      CheckOutcome(Authenticated, s.session.(loggedIn := true, userId := Some(Cell(byCookie.value, "id"))))
    else if s.session.loggedIn then
      if s.session.mfaRequired then CheckOutcome(Redirect(VerifyRoute), s.session)
      else CheckOutcome(Authenticated, s.session)
    else
      CheckOutcome(Redirect(LogoutRoute), s.session)
  }

  /** A matching remember cookie decides before the MFA flag is consulted:
      the verdict is the same whatever the session holds. */
  lemma CookieBypassesMfa(s: State, other: Session)
    requires s.rememberMe.Some? && !TokenUnused(s.users, s.rememberMe.value)
    ensures IsLoggedIn(s.(session := other)).verdict == Authenticated
    ensures IsLoggedIn(s.(session := other)).session.userId == IsLoggedIn(s).session.userId
  {
  }

  // =====================================================================
  // logout

  /** `logout()`: the session is destroyed, a present cookie is expired,
      and the request always ends with a redirect to the login page. */
  function Logout(s: State, now: int): (r: LogoutOutcome)
    ensures r.state.session == Session(false, None, false)
    ensures r.state.users == s.users
    ensures r.location == "../../login"
    ensures s.rememberMe.Some? ==> r.cookie == Some(SetCookie("", now - 3600))
    ensures s.rememberMe.None? ==> r.cookie.None?
  {
    var cookie := if s.rememberMe.Some? then Some(SetCookie("", now - ExpiredBy)) else None;
    LogoutOutcome(s.(session := EmptySession), cookie, LoginRoute)
  }

  /** After logout the same browser sends no cookie, and its session no
      longer authenticates: `is_logged_in` redirects to the logout route. */
  lemma LogoutThenCheck(s: State, now: int, later: int)
    ensures var out := Logout(s, now);
      var next := out.state.(rememberMe := NextCookie(s.rememberMe, out.cookie, later));
      next.rememberMe.None? && IsLoggedIn(next).verdict == Redirect("assets/includes/logout")
  {
  }

  // =====================================================================
  // Remember tokens across requests

  /** Writing a token no row held into the rows with id `uid` makes the token
      identify exactly those rows, and looking it up yields a row with that id. */
  lemma {:induction false} StoredTokenIdentifiesOwner(users: Table, uid: Value, token: string)
    requires TokenUnused(users, token)
    requires exists i :: 0 <= i < |users| && Eq("id", uid)(users[i])
    ensures var users' := UpdateRows(users, Eq("id", uid), ["remember_token"], [token]);
      && (forall i :: 0 <= i < |users| ==> (Eq("remember_token", token)(users'[i]) <==> Eq("id", uid)(users[i])))
      && First(users', Eq("remember_token", token)).Some?
      && Cell(First(users', Eq("remember_token", token)).value, "id") == uid
  {
    var users' := UpdateRows(users, Eq("id", uid), ["remember_token"], [token]);
    assert NoDuplicates(["remember_token"]);
    forall i | 0 <= i < |users| ensures Eq("remember_token", token)(users'[i]) <==> Eq("id", uid)(users[i]) {
      if Eq("id", uid)(users[i]) {
        assert users'[i]["remember_token"] == token;
      } else {
        assert users'[i] == users[i];
      }
    }
    var k := FirstIndex(users', Eq("remember_token", token));
    var i0 :| 0 <= i0 < |users| && Eq("id", uid)(users[i0]);
    assert Eq("remember_token", token)(users'[i0]);
    assert 0 <= k;
    assert Eq("id", uid)(users[k]);
    assert users'[k]["id"] == users[k]["id"];
  }

  /** Remember-me round trip: a fresh browser session that carries only the
      cookie a remember-login set authenticates as the same user. */
  lemma RememberRoundTrip(s: State, username: string, password: string, now: int,
                          random: seq<Byte>, verify: PasswordVerify, later: int)
    requires |random| == 16
    requires WellFormedUsers(s.users)
    requires TokenUnused(s.users, Bin2Hex(random))
    requires later < now + RememberLifetime
    requires Login(s, username, password, true, now, random, verify).ok
    ensures var r := Login(s, username, password, true, now, random, verify);
      var next := State(r.state.users, EmptySession, NextCookie(None, r.cookie, later));
      && next.rememberMe == Some(Bin2Hex(random))
      && IsLoggedIn(next).verdict == Authenticated
      && IsLoggedIn(next).session.userId == r.state.session.userId
  {
    var uid := RememberLoginWrites(s, username, password, now, random, verify);
    CookieReturns(Login(s, username, password, true, now, random, verify).state.users, Bin2Hex(random), now, later);
  }

  /** A cookie set with a non-empty token that some row holds, presented
      before it expires, authenticates as the first such row's id. */
  lemma CookieReturns(users: Table, token: string, now: int, later: int)
    requires token != "" && later < now + RememberLifetime
    requires First(users, Eq("remember_token", token)).Some?
    ensures NextCookie(None, Some(SetCookie(token, now + RememberLifetime)), later) == Some(token)
    ensures var r := IsLoggedIn(State(users, EmptySession, Some(token)));
      && r.verdict == Authenticated
      && r.session.userId == Some(Cell(First(users, Eq("remember_token", token)).value, "id"))
  {
    assert PdoQuery(users, "users", "*", RememberTokenIs(token)).result == First(users, Eq("remember_token", token));
  }

  /** What a successful remember-login wrote, spelled out for the lemmas
      about later requests: the rows with the user's id got the token and
      the token now identifies that user. */
  lemma RememberLoginWrites(s: State, username: string, password: string, now: int,
                            random: seq<Byte>, verify: PasswordVerify) returns (uid: Value)
    requires |random| == 16
    requires WellFormedUsers(s.users)
    requires TokenUnused(s.users, Bin2Hex(random))
    requires Login(s, username, password, true, now, random, verify).ok
    ensures var r := Login(s, username, password, true, now, random, verify);
      && r.state.session.userId == Some(uid)
      && r.state.users == UpdateRows(s.users, Eq("id", uid), ["remember_token"], [Bin2Hex(random)])
      && r.cookie == Some(SetCookie(Bin2Hex(random), now + RememberLifetime))
      && First(r.state.users, Eq("remember_token", Bin2Hex(random))).Some?
      && Cell(First(r.state.users, Eq("remember_token", Bin2Hex(random))).value, "id") == uid
  {
    var found := First(s.users, Eq("username", username));
    uid := Cell(found.value, "id");
    var i :| 0 <= i < |s.users| && s.users[i] == found.value;
    assert Eq("id", uid)(s.users[i]);
    StoredTokenIdentifiesOwner(s.users, uid, Bin2Hex(random));
  }

  /** `logout` does not clear `remember_token`: a token captured before
      logout still authenticates its owner afterwards. */
  lemma ReplayAfterLogout(s: State, username: string, password: string, now: int,
                          random: seq<Byte>, verify: PasswordVerify, logoutAt: int)
    requires |random| == 16
    requires WellFormedUsers(s.users)
    requires TokenUnused(s.users, Bin2Hex(random))
    requires Login(s, username, password, true, now, random, verify).ok
    ensures var r := Login(s, username, password, true, now, random, verify);
      var out := Logout(r.state, logoutAt);
      var replay := out.state.(rememberMe := Some(Bin2Hex(random)));
      && out.state.session == EmptySession
      && IsLoggedIn(replay).verdict == Authenticated
      && IsLoggedIn(replay).session.userId == r.state.session.userId
  {
    var uid := RememberLoginWrites(s, username, password, now, random, verify);
  }

  /** A second remember-login of the same user overwrites the first token:
      afterwards no row holds it, so presenting it falls through to the
      session check exactly as if no cookie had been sent. */
  lemma SecondRememberLoginRevokesFirst(s: State, u1: string, p1: string, n1: int, b1: seq<Byte>,
                                        u2: string, p2: string, n2: int, b2: seq<Byte>,
                                        verify: PasswordVerify)
    requires |b1| == 16 && |b2| == 16
    requires Bin2Hex(b1) != Bin2Hex(b2)
    requires WellFormedUsers(s.users)
    requires TokenUnused(s.users, Bin2Hex(b1))
    requires Login(s, u1, p1, true, n1, b1, verify).ok
    requires Login(Login(s, u1, p1, true, n1, b1, verify).state, u2, p2, true, n2, b2, verify).ok
    requires Login(Login(s, u1, p1, true, n1, b1, verify).state, u2, p2, true, n2, b2, verify).state.session.userId
          == Login(s, u1, p1, true, n1, b1, verify).state.session.userId
    ensures var s1 := Login(s, u1, p1, true, n1, b1, verify).state;
      var s2 := Login(s1, u2, p2, true, n2, b2, verify).state;
      && TokenUnused(s2.users, Bin2Hex(b1))
      && IsLoggedIn(s2.(rememberMe := Some(Bin2Hex(b1)))) == IsLoggedIn(s2.(rememberMe := None))
  {
    var t1, t2 := Bin2Hex(b1), Bin2Hex(b2);
    var s1 := Login(s, u1, p1, true, n1, b1, verify).state;
    var s2 := Login(s1, u2, p2, true, n2, b2, verify).state;
    var uid := s1.session.userId.value;
    assert s1.users == StoreRememberToken(s.users, uid, t1);
    assert s2.users == StoreRememberToken(s1.users, uid, t2);
    OverwrittenTokenUnused(s.users, uid, t1, t2);
  }

  /** Storing `t2` over `t1` for the same id leaves `t1` in no row, when `t1`
      was in no row before. */
  lemma OverwrittenTokenUnused(users: Table, uid: Value, t1: string, t2: string)
    requires WellFormedUsers(users) && TokenUnused(users, t1) && t1 != t2
    ensures TokenUnused(StoreRememberToken(StoreRememberToken(users, uid, t1), uid, t2), t1)
  {
    var u1 := StoreRememberToken(users, uid, t1);
    var u2 := StoreRememberToken(u1, uid, t2);
    forall j | 0 <= j < |u2| ensures !Eq("remember_token", t1)(u2[j]) {
      if Eq("id", uid)(u1[j]) {
        assert Eq("remember_token", t2)(u2[j]);
      } else {
        assert u2[j] == u1[j];
        assert "id" in users[j] && u1[j]["id"] == users[j]["id"];
        assert u1[j] == users[j];
      }
    }
  }
}

=== FILE: database.dfy ===
/** The generic PDO query layer (`Database` class): for each operation, the
    statement text it prepares, the values it binds, and what executing it
    means for a table of rows.

    A table is a sequence of rows in the order MySQL returns them; a row maps
    column names to values, and a column missing from the map is SQL NULL.
    The free-form WHERE expression is a `Where`: the text interpolated into
    the statement together with the row predicate it stands for. */
module Database {
  import opened Results
  import opened Text

  type Value = string
  type Row = map<string, Value>
  type Table = seq<Row>

  /** What a WHERE expression means for one row. */
  type Condition = Row -> bool

  /** A WHERE expression: its SQL text and its meaning. */
  datatype Where = Where(text: string, holds: Condition)

  /** A prepared statement: its SQL text and the values bound by position (1-based). */
  datatype Statement = Statement(sql: string, binds: map<int, Value>)

  /** Why `execute` raises (PDO's default error mode in PHP 8 throws). */
  datatype StoreError =
    | ParameterCountMismatch  // bound values differ from the `?` placeholders
    | EmptySetClause          // `UPDATE t SET  WHERE ...` is a syntax error
    | DuplicateColumn         // MySQL refuses a column named twice in INSERT

  /** What one PDO call sent to the server and what it returned. */
  datatype Call<T> = Call(stmt: Statement, result: T)

  /** A column as PHP reads it from a fetched row: NULL reads as "". */
  function Cell(r: Row, column: string): Value
  {
    if column in r then r[column] else ""
  }

  /** The condition `column = 'v'` (false on NULL, as in SQL). */
  function Eq(column: string, v: Value): Condition
  {
    r => column in r && r[column] == v
  }

  /** The WHERE expression `column = 'v'` the callers interpolate. */
  function ColumnIs(column: string, v: Value): Where
  {
    Where(column + " = '" + v + "'", Eq(column, v))
  }

  predicate NoDuplicates(columns: seq<string>)
  {
    forall i, j :: 0 <= i < j < |columns| ==> columns[i] != columns[j]
  }

  // =====================================================================
  // Statement text

  /** The SELECT of lines 36, 86 and 136: the WHERE text is pasted in
      verbatim and ends the statement. */
  function SelectSql(selector: string, table: string, where: string): (r: string)
    ensures StartsWith(r, "SELECT " + selector + " FROM " + table + " WHERE ")
    ensures EndsWith(r, " WHERE " + where)
  {
    ConcatEnds("SELECT " + selector + " FROM " + table + " WHERE ", where);
    ConcatEnds("SELECT " + selector + " FROM " + table, " WHERE " + where);
    "SELECT " + selector + " FROM " + table + " WHERE " + where
  }

  function SelectAllSql(selector: string, table: string): string
  {
    "SELECT " + selector + " FROM " + table
  }

  /** `array_fill(0, n, '?')` */
  function PlaceholderParts(n: nat): (r: seq<string>)
  {
    seq(n, _ => "?")
  }

  /** The `?,?,...,?` list of an INSERT. */
  function Placeholders(n: nat): string
  {
    Join(",", PlaceholderParts(n))
  }

  /** The `c=?` pieces of an UPDATE, one per column. */
  function AssignmentParts(columns: seq<string>): seq<string>
  {
    seq(|columns|, i requires 0 <= i < |columns| => columns[i] + "=?")
  }

  /** The SET clause of an UPDATE. */
  function Assignments(columns: seq<string>): string
  {
    Join(",", AssignmentParts(columns))
  }

  /** The INSERT of line 113: the named columns, then one placeholder per
      column. */
  function InsertSql(table: string, columns: seq<string>): (r: string)
    ensures StartsWith(r, "INSERT INTO " + table + " (" + Join(",", columns) + ") VALUES (")
    ensures EndsWith(r, Placeholders(|columns|) + ")")
  {
    var head := "INSERT INTO " + table + " (" + Join(",", columns) + ") VALUES (";
    ConcatEnds(head, Placeholders(|columns|) + ")");
    assert head + (Placeholders(|columns|) + ")") == head + Placeholders(|columns|) + ")";
    "INSERT INTO " + table + " (" + Join(",", columns) + ") VALUES (" + Placeholders(|columns|) + ")"
  }

  /** The UPDATE of line 165: the SET assignments, then the WHERE text
      pasted in verbatim at the end. */
  function UpdateSql(table: string, columns: seq<string>, where: string): (r: string)
    ensures StartsWith(r, "UPDATE " + table + " SET " + Assignments(columns))
    ensures EndsWith(r, " WHERE " + where)
  {
    ConcatEnds("UPDATE " + table + " SET " + Assignments(columns), " WHERE " + where);
    "UPDATE " + table + " SET " + Assignments(columns) + " WHERE " + where
  }

  /** The DELETE of line 188: the WHERE text pasted in verbatim at the end. */
  function DeleteSql(table: string, where: string): (r: string)
    ensures StartsWith(r, "DELETE FROM " + table + " WHERE ")
    ensures EndsWith(r, " WHERE " + where)
  {
    ConcatEnds("DELETE FROM " + table + " WHERE ", where);
    ConcatEnds("DELETE FROM " + table, " WHERE " + where);
    "DELETE FROM " + table + " WHERE " + where
  }

  /** The `bindValue($i + 1, $values[$i])` loop: value i goes to placeholder i+1. */
  function Bind(values: seq<Value>): (b: map<int, Value>)
    ensures forall i :: i in b <==> 1 <= i <= |values|
    ensures forall i :: 0 <= i < |values| ==> b[i + 1] == values[i]
  {
    if |values| == 0 then map[]
    else Bind(values[..|values| - 1])[|values| := values[|values| - 1]]
  }

  // ---------------------------------------------------------------------
  // Facts about the statement text

  /** A list of parts that each hold `c` exactly `k` times, joined by a
      separator without `c`, holds `c` exactly `k` times per part. */
  lemma {:induction false} CountCharJoin(c: char, sep: string, parts: seq<string>, k: nat)
    requires c !in sep
    requires forall i :: 0 <= i < |parts| ==> CountChar(c, parts[i]) == k
    ensures CountChar(c, Join(sep, parts)) == k * |parts|
  {
    if |parts| == 0 {
    } else if |parts| == 1 {
    } else {
      var rest := parts[1..];
      forall i | 0 <= i < |rest| ensures CountChar(c, rest[i]) == k {
        assert rest[i] == parts[i + 1];
      }
      var j := Join(sep, rest);
      assert Join(sep, parts) == parts[0] + sep + j;
      CountCharJoin(c, sep, rest, k);
      CountCharAbsent(c, sep);
      CountCharAppend(c, parts[0], sep);
      CountCharAppend(c, parts[0] + sep, j);
      assert CountChar(c, parts[0] + sep + j) == k + CountChar(c, j);
      MulSucc(k, |rest|);
    }
  }

  lemma MulSucc(k: nat, n: nat)
    ensures k * (n + 1) == k + k * n
  {
  }

  lemma PlaceholderCount(n: nat)
    ensures CountChar('?', Placeholders(n)) == n
  {
    var parts := PlaceholderParts(n);
    forall i | 0 <= i < |parts| ensures CountChar('?', parts[i]) == 1 {
      assert parts[i] == "?";
      assert "?"[1..] == "";
    }
    CountCharJoin('?', ",", parts, 1);
  }

  /** The INSERT statement carries exactly one `?` per column (when the
      table and column names hold none themselves). */
  lemma InsertSqlPlaceholders(table: string, columns: seq<string>)
    requires '?' !in table
    requires forall i :: 0 <= i < |columns| ==> '?' !in columns[i]
    ensures CountChar('?', InsertSql(table, columns)) == |columns|
  {
    var cols, ph := Join(",", columns), Placeholders(|columns|);
    assert CountChar('?', cols) == 0 by {
      forall i | 0 <= i < |columns| ensures CountChar('?', columns[i]) == 0 {
        CountCharAbsent('?', columns[i]);
      }
      CountCharJoin('?', ",", columns, 0);
    }
    assert CountChar('?', ph) == |columns| by {
      PlaceholderCount(|columns|);
    }
    var s1 := "INSERT INTO " + table;
    assert CountChar('?', s1) == 0 by {
      CountCharAbsent('?', "INSERT INTO ");
      CountCharAbsent('?', table);
      CountCharAppend('?', "INSERT INTO ", table);
    }
    var s2 := s1 + " (" + cols;
    assert CountChar('?', s2) == 0 by {
      CountCharAbsent('?', " (");
      CountCharAppend('?', s1, " (");
      CountCharAppend('?', s1 + " (", cols);
    }
    var s3 := s2 + ") VALUES (" + ph;
    assert CountChar('?', s3) == |columns| by {
      CountCharAbsent('?', ") VALUES (");
      CountCharAppend('?', s2, ") VALUES (");
      CountCharAppend('?', s2 + ") VALUES (", ph);
    }
    assert CountChar('?', s3 + ")") == |columns| by {
      CountCharAbsent('?', ")");
      CountCharAppend('?', s3, ")");
    }
  }

  /** The column list of an INSERT reads back, field by field, as the columns given. */
  lemma InsertColumnList(columns: seq<string>)
    requires |columns| >= 1
    requires forall i :: 0 <= i < |columns| ==> ',' !in columns[i]
    ensures Split(',', Join(",", columns)) == columns
  {
    SplitJoin(',', columns);
  }

  /** The placeholder list of an INSERT reads back as `n` single `?` fields. */
  lemma PlaceholderFields(n: nat)
    requires n >= 1
    ensures Split(',', Placeholders(n)) == seq(n, _ => "?")
  {
    var parts := PlaceholderParts(n);
    forall i | 0 <= i < |parts| ensures ',' !in parts[i] {
      assert parts[i] == "?";
    }
    SplitJoin(',', parts);
  }

  /** The SET clause reads back, field by field, as `c_i=?` for the columns in order. */
  lemma SetClauseFields(columns: seq<string>)
    requires |columns| >= 1
    requires forall i :: 0 <= i < |columns| ==> ',' !in columns[i]
    ensures Split(',', Assignments(columns)) == AssignmentParts(columns)
    ensures forall i :: 0 <= i < |columns| ==> AssignmentParts(columns)[i] == columns[i] + "=?"
  {
    var parts := AssignmentParts(columns);
    forall i | 0 <= i < |parts| ensures ',' !in parts[i] {
      assert parts[i] == columns[i] + "=?";
      assert forall k :: 0 <= k < |parts[i]| ==> parts[i][k] == (if k < |columns[i]| then columns[i][k] else "=?"[k - |columns[i]|]);
    }
    SplitJoin(',', parts);
  }

  /** The UPDATE statement carries exactly one `?` per column (when table,
      column names and WHERE text hold none themselves). */
  lemma UpdateSqlPlaceholders(table: string, columns: seq<string>, where: string)
    requires '?' !in table && '?' !in where
    requires forall i :: 0 <= i < |columns| ==> '?' !in columns[i]
    ensures CountChar('?', UpdateSql(table, columns, where)) == |columns|
  {
    var parts := AssignmentParts(columns);
    var assignments := Assignments(columns);
    assert CountChar('?', assignments) == |columns| by {
      forall i | 0 <= i < |parts| ensures CountChar('?', parts[i]) == 1 {
        CountCharAbsent('?', columns[i]);
        CountCharAppend('?', columns[i], "=?");
        assert "=?"[1..][1..] == "";
      }
      CountCharJoin('?', ",", parts, 1);
    }
    var s1 := "UPDATE " + table;
    assert CountChar('?', s1) == 0 by {
      CountCharAbsent('?', "UPDATE ");
      CountCharAbsent('?', table);
      CountCharAppend('?', "UPDATE ", table);
    }
    var s2 := s1 + " SET " + assignments;
    assert CountChar('?', s2) == |columns| by {
      CountCharAbsent('?', " SET ");
      CountCharAppend('?', s1, " SET ");
      CountCharAppend('?', s1 + " SET ", assignments);
    }
    assert CountChar('?', s2 + " WHERE " + where) == |columns| by {
      CountCharAbsent('?', " WHERE ");
      CountCharAbsent('?', where);
      CountCharAppend('?', s2, " WHERE ");
      CountCharAppend('?', s2 + " WHERE ", where);
    }
  }

  // =====================================================================
  // Row semantics

  /** Index of the first row satisfying `c`, or -1 when there is none. */
  function FirstIndex(t: Table, c: Condition): (i: int)
    ensures -1 <= i < |t|
    ensures 0 <= i ==> c(t[i])
    ensures forall j :: 0 <= j < |t| && (i < 0 || j < i) ==> !c(t[j])
  {
    if |t| == 0 then -1
    else if c(t[0]) then 0
    else
      var k := FirstIndex(t[1..], c);
      assert forall j :: 1 <= j < |t| ==> t[j] == t[1..][j - 1];
      if k < 0 then -1 else k + 1
  }

  /** `fetch()`: the first row satisfying `c`, or `false` (here `None`). */
  function First(t: Table, c: Condition): (r: Option<Row>)
    ensures r.None? <==> forall j :: 0 <= j < |t| ==> !c(t[j])
    ensures r.Some? ==> exists i :: 0 <= i < |t| && t[i] == r.value && c(t[i]) && forall j :: 0 <= j < i ==> !c(t[j])
  {
    var i := FirstIndex(t, c);
    if i < 0 then None else Some(t[i])
  }

  /** `fetchAll()`: the rows satisfying `c`, in table order. */
  function Filter(t: Table, c: Condition): (r: Table)
    ensures |r| <= |t|
    ensures forall x :: x in r ==> c(x)
    ensures forall x :: multiset(r)[x] == if c(x) then multiset(t)[x] else 0
  {
    if |t| == 0 then []
    else
      assert t == [t[0]] + t[1..];
      (if c(t[0]) then [t[0]] else []) + Filter(t[1..], c)
  }

  /** Filtering keeps table order: filtering a concatenation filters each part. */
  lemma {:induction false} FilterAppend(a: Table, b: Table, c: Condition)
    ensures Filter(a + b, c) == Filter(a, c) + Filter(b, c)
  {
    if |a| == 0 {
      assert a + b == b;
    } else {
      assert (a + b)[1..] == a[1..] + b;
      FilterAppend(a[1..], b, c);
    }
  }

  /** The assignments `c_1=v_1, ..., c_n=v_n` applied left to right to one row. */
  function Assign(r: Row, columns: seq<string>, values: seq<Value>): (r': Row)
    requires |columns| == |values|
    ensures r'.Keys == r.Keys + set i | 0 <= i < |columns| :: columns[i]
    ensures forall k :: k in r && k !in columns ==> r'[k] == r[k]
    ensures forall i :: 0 <= i < |columns| && (forall j :: i < j < |columns| ==> columns[j] != columns[i]) ==> r'[columns[i]] == values[i]
    decreases |columns|
  {
    if |columns| == 0 then r
    else
      var r' := Assign(r[columns[0] := values[0]], columns[1..], values[1..]);
      assert forall i :: 1 <= i < |columns| ==> columns[i] == columns[1..][i - 1];
      assert (set i | 0 <= i < |columns| :: columns[i]) == {columns[0]} + set i | 0 <= i < |columns[1..]| :: columns[1..][i];
      r'
  }

  /** The column set of a one-column SET clause. */
  lemma SingleColumnSet(column: string)
    ensures (set k | 0 <= k < |[column]| :: [column][k]) == {column}
  {
    assert [column][0] == column;
  }

  /** Every row satisfying `c` gets the assignments; the rest stay as they were. */
  function UpdateRows(t: Table, c: Condition, columns: seq<string>, values: seq<Value>): (r: Table)
    requires |columns| == |values|
    ensures |r| == |t|
    ensures forall i :: 0 <= i < |t| && !c(t[i]) ==> r[i] == t[i]
    ensures forall i :: 0 <= i < |t| && c(t[i]) ==> r[i].Keys == t[i].Keys + set k | 0 <= k < |columns| :: columns[k]
    ensures forall i, k :: 0 <= i < |t| && c(t[i]) && k in t[i] && k !in columns ==> r[i][k] == t[i][k]
    ensures NoDuplicates(columns) ==> forall i, k :: 0 <= i < |t| && c(t[i]) && 0 <= k < |columns| ==> r[i][columns[k]] == values[k]
  {
    seq(|t|, i requires 0 <= i < |t| => if c(t[i]) then Assign(t[i], columns, values) else t[i])
  }

  // =====================================================================
  // The operations of the `Database` class

  /** `pdoQuery`: SELECT with the caller's WHERE text and nothing bound; the first matching row, or false. */
  function PdoQuery(t: Table, table: string, selector: string, w: Where): (r: Call<Option<Row>>)
    ensures r.stmt.binds == map[]
    ensures r.stmt.sql == SelectSql(selector, table, w.text)
    ensures EndsWith(r.stmt.sql, " WHERE " + w.text)
    ensures r.result.None? <==> forall j :: 0 <= j < |t| ==> !w.holds(t[j])
    ensures r.result.Some? ==> exists i :: 0 <= i < |t| && t[i] == r.result.value && w.holds(t[i]) && forall j :: 0 <= j < i ==> !w.holds(t[j])
  {
    var sql := SelectSql(selector, table, w.text);
    assert sql == ("SELECT " + selector + " FROM " + table) + (" WHERE " + w.text);
    Call(Statement(sql, map[]), First(t, w.holds))
  }

  /** `pdoWhileQuery`: with type "table" the whole table (no WHERE at all); otherwise the matching rows, in order. */
  function PdoWhileQuery(t: Table, table: string, selector: string, w: Where, kind: string): (r: Call<Table>)
    ensures r.stmt.binds == map[]
    ensures kind == "table" ==> r.result == t && r.stmt.sql == "SELECT " + selector + " FROM " + table
    ensures kind != "table" ==> r.stmt.sql == SelectSql(selector, table, w.text)
    ensures kind != "table" ==> EndsWith(r.stmt.sql, " WHERE " + w.text)
    ensures kind != "table" ==> r.result == Filter(t, w.holds)
    ensures kind != "table" ==> forall x :: multiset(r.result)[x] == if w.holds(x) then multiset(t)[x] else 0
    ensures |r.result| <= |t|
  {
    if kind == "table" then Call(Statement(SelectAllSql(selector, table), map[]), t)
    else
      var sql := SelectSql(selector, table, w.text);
      assert sql == ("SELECT " + selector + " FROM " + table) + (" WHERE " + w.text);
      Call(Statement(sql, map[]), Filter(t, w.holds))
  }

  /** `pdoNumRows`: `rowCount()` of the SELECT, the number of matching rows. */
  function PdoNumRows(t: Table, table: string, selector: string, w: Where): (r: Call<nat>)
    ensures r.stmt.binds == map[]
    ensures r.stmt.sql == SelectSql(selector, table, w.text)
    ensures r.result == |Filter(t, w.holds)|
    ensures r.result <= |t|
    ensures r.result == 0 <==> forall j :: 0 <= j < |t| ==> !w.holds(t[j])
    ensures r.result == |t| <==> forall j :: 0 <= j < |t| ==> w.holds(t[j])
  {
    var rows := Filter(t, w.holds);
    FilterNone(t, w.holds);
    FilterAll(t, w.holds);
    Call(Statement(SelectSql(selector, table, w.text), map[]), |rows|)
  }

  /** The first step of `Filter`. */
  lemma FilterCons(t: Table, c: Condition)
    requires |t| > 0
    ensures Filter(t, c) == (if c(t[0]) then [t[0]] else []) + Filter(t[1..], c)
  {
  }

  /** The filter keeps every row exactly when every row satisfies the condition. */
  lemma {:induction false} FilterAll(t: Table, c: Condition)
    ensures |Filter(t, c)| == |t| <==> forall j :: 0 <= j < |t| ==> c(t[j])
  {
    if |t| > 0 {
      FilterAll(t[1..], c);
      FilterCons(t, c);
      if forall j :: 0 <= j < |t| ==> c(t[j]) {
        forall j | 0 <= j < |t[1..]| ensures c(t[1..][j]) {
          assert t[1..][j] == t[j + 1];
        }
      } else {
        var j :| 0 <= j < |t| && !c(t[j]);
        if j > 0 {
          assert !c(t[1..][j - 1]);
        }
      }
    }
  }

  /** The filter keeps nothing exactly when no row satisfies the condition. */
  lemma FilterNone(t: Table, c: Condition)
    ensures Filter(t, c) == [] <==> forall j :: 0 <= j < |t| ==> !c(t[j])
  {
    if exists j :: 0 <= j < |t| && c(t[j]) {
      var j :| 0 <= j < |t| && c(t[j]);
      assert multiset(Filter(t, c))[t[j]] == multiset(t)[t[j]] > 0;
    }
  }

  /** `pdoInsertQuery`: `INSERT INTO t (c_1,...,c_n) VALUES (?,...,?)` with
      value i bound at position i+1; the table gains one row at the end
      holding exactly the listed columns. */
  function PdoInsertQuery(t: Table, table: string, columns: seq<string>, values: seq<Value>): (r: Call<Result<Table, StoreError>>)
    ensures r.stmt.sql == InsertSql(table, columns)
    ensures forall i :: i in r.stmt.binds <==> 1 <= i <= |values|
    ensures forall i :: 0 <= i < |values| ==> r.stmt.binds[i + 1] == values[i]
    ensures r.result.Success? <==> |columns| == |values| && NoDuplicates(columns)
    ensures r.result.Failure? && |columns| != |values| ==> r.result.error == ParameterCountMismatch
    ensures r.result.Success? ==>
      var t' := r.result.value;
      && |t'| == |t| + 1 && t'[..|t|] == t
      && t'[|t|].Keys == (set i | 0 <= i < |columns| :: columns[i])
      && forall i :: 0 <= i < |columns| ==> columns[i] in t'[|t|] && t'[|t|][columns[i]] == values[i]
  {
    var stmt := Statement(InsertSql(table, columns), Bind(values));
    if |columns| != |values| then Call(stmt, Failure(ParameterCountMismatch))
    else if !NoDuplicates(columns) then Call(stmt, Failure(DuplicateColumn))
    else
      var row := Assign(map[], columns, values);
      assert (t + [row])[..|t|] == t;
      Call(stmt, Success(t + [row]))
  }

  /** `pdoUpdate`: `UPDATE t SET c_1=?,...,c_n=? WHERE e` with value i bound
      at position i+1; matching rows take the new values, other rows and
      unlisted columns keep theirs. */
  function PdoUpdate(t: Table, table: string, columns: seq<string>, values: seq<Value>, w: Where): (r: Call<Result<Table, StoreError>>)
    ensures forall i :: i in r.stmt.binds <==> 1 <= i <= |values|
    ensures forall i :: 0 <= i < |values| ==> r.stmt.binds[i + 1] == values[i]
    ensures r.stmt.sql == UpdateSql(table, columns, w.text)
    ensures EndsWith(r.stmt.sql, " WHERE " + w.text)
    ensures r.result.Success? <==> |columns| == |values| && |columns| > 0
    ensures r.result.Success? ==>
      var t' := r.result.value;
      && |t'| == |t|
      && (forall i :: 0 <= i < |t| && !w.holds(t[i]) ==> t'[i] == t[i])
      && (forall i :: 0 <= i < |t| && w.holds(t[i]) ==> t'[i].Keys == t[i].Keys + set k | 0 <= k < |columns| :: columns[k])
      && (forall i, k :: 0 <= i < |t| && w.holds(t[i]) && k in t[i] && k !in columns ==> k in t'[i] && t'[i][k] == t[i][k])
      && (NoDuplicates(columns) ==> forall i, k :: 0 <= i < |t| && w.holds(t[i]) && 0 <= k < |columns| ==> columns[k] in t'[i] && t'[i][columns[k]] == values[k])
  {
    var sql := UpdateSql(table, columns, w.text);
    assert sql == ("UPDATE " + table + " SET " + Assignments(columns)) + (" WHERE " + w.text);
    var stmt := Statement(sql, Bind(values));
    if |columns| != |values| then Call(stmt, Failure(ParameterCountMismatch))
    else if |columns| == 0 then Call(stmt, Failure(EmptySetClause))
    else Call(stmt, Success(UpdateRows(t, w.holds, columns, values)))
  }

  /** `pdoDelete`: `DELETE FROM t WHERE e`; the matching rows go, the rest keep their order. */
  function PdoDelete(t: Table, table: string, w: Where): (r: Call<Table>)
    ensures r.stmt.binds == map[]
    ensures r.stmt.sql == DeleteSql(table, w.text)
    ensures EndsWith(r.stmt.sql, " WHERE " + w.text)
    ensures forall x :: x in r.result ==> !w.holds(x)
    ensures forall x :: multiset(r.result)[x] == if w.holds(x) then 0 else multiset(t)[x]
  {
    var sql := DeleteSql(table, w.text);
    assert sql == "DELETE FROM " + table + (" WHERE " + w.text);
    Call(Statement(sql, map[]), Filter(t, x => !w.holds(x)))
  }

  /** Deleting keeps the relative order of the surviving rows: deleting from
      a concatenation deletes from each part. */
  lemma DeleteKeepsOrder(a: Table, b: Table, table: string, w: Where)
    ensures PdoDelete(a + b, table, w).result == PdoDelete(a, table, w).result + PdoDelete(b, table, w).result
  {
    FilterAppend(a, b, x => !w.holds(x));
  }

  /** The rows `pdoNumRows` counts and the rows `pdoDelete` keeps partition the table. */
  lemma CountAndDeletePartition(t: Table, table: string, selector: string, w: Where)
    ensures PdoNumRows(t, table, selector, w).result + |PdoDelete(t, table, w).result| == |t|
  {
    var kept := Filter(t, w.holds);
    var gone := Filter(t, x => !w.holds(x));
    assert multiset(kept) + multiset(gone) == multiset(t) by {
      forall x ensures (multiset(kept) + multiset(gone))[x] == multiset(t)[x] {
      }
    }
    assert |multiset(kept) + multiset(gone)| == |multiset(t)|;
  }

  /** No row before row `j` has the same `key` column value as row `j`. */
  predicate FirstWithKey(rows: Table, key: string, j: int)
    requires 0 <= j < |rows|
  {
    forall k :: 0 <= k < j ==> Cell(rows[k], key) != Cell(rows[j], key)
  }

  /** The `foreach` of `pdoArrayQuery` with PHP's array union `+=`, which
      never replaces a key already present: every row's key is in the map,
      nothing else is, and each key keeps the value of the FIRST row that
      produced it. */
  method KeyedFirst(rows: Table, indexVariable: string, indexAssign: string) returns (acc: map<Value, Value>)
    ensures forall j :: 0 <= j < |rows| ==> Cell(rows[j], indexVariable) in acc
    ensures forall x :: x in acc ==> exists j :: 0 <= j < |rows| && Cell(rows[j], indexVariable) == x
    ensures forall j :: 0 <= j < |rows| && FirstWithKey(rows, indexVariable, j) ==> acc[Cell(rows[j], indexVariable)] == Cell(rows[j], indexAssign)
  {
    acc := map[];
    var i := 0;
    while i < |rows|
      invariant 0 <= i <= |rows|
      invariant forall j :: 0 <= j < i ==> Cell(rows[j], indexVariable) in acc
      invariant forall x :: x in acc ==> exists j :: 0 <= j < i && Cell(rows[j], indexVariable) == x
      invariant forall j :: 0 <= j < i && FirstWithKey(rows, indexVariable, j) ==> acc[Cell(rows[j], indexVariable)] == Cell(rows[j], indexAssign)
    {
      var key := Cell(rows[i], indexVariable);
      if key !in acc {
        acc := acc[key := Cell(rows[i], indexAssign)];
      } else {
        var j :| 0 <= j < i && Cell(rows[j], indexVariable) == key;
        assert !FirstWithKey(rows, indexVariable, i);
      }
      i := i + 1;
    }
  }

  /** `pdoArrayQuery`: a SELECT with the caller's WHERE text, folded into a
      key => value map by `KeyedFirst`. */
  method PdoArrayQuery(t: Table, table: string, selector: string, w: Where, indexVariable: string, indexAssign: string)
    returns (r: Call<map<Value, Value>>)
    ensures r.stmt.binds == map[]
    ensures r.stmt.sql == SelectSql(selector, table, w.text)
    ensures EndsWith(r.stmt.sql, " WHERE " + w.text)
    ensures var rows := Filter(t, w.holds);
      forall j :: 0 <= j < |rows| ==> Cell(rows[j], indexVariable) in r.result
    ensures var rows := Filter(t, w.holds);
      forall x :: x in r.result ==> exists j :: 0 <= j < |rows| && Cell(rows[j], indexVariable) == x
    ensures var rows := Filter(t, w.holds);
      forall j :: 0 <= j < |rows| && FirstWithKey(rows, indexVariable, j) ==> r.result[Cell(rows[j], indexVariable)] == Cell(rows[j], indexAssign)
  {
    var sql := SelectSql(selector, table, w.text);
    assert sql == ("SELECT " + selector + " FROM " + table) + (" WHERE " + w.text);
    var m := KeyedFirst(Filter(t, w.holds), indexVariable, indexAssign);
    r := Call(Statement(sql, map[]), m);
  }
}

=== FILE: log.dfy ===
/** The `Log` class: request classification (client IP, operating system,
    browser), alert-box markup, and the row `logAction` inserts into `logs`.

    The environment (`getenv`) and the `User-Agent` header are inputs. The
    PCRE patterns are modelled as case-insensitive (ASCII) substring tests in
    which `.` matches any character but a newline, with `a|b` alternation. */
module Log {
  import opened Results
  import opened Text
  import opened Database

  // =====================================================================
  // get_ip

  /** The server environment `getenv` reads; an unset name is missing. */
  type Environment = map<string, string>

  /** Where `get_ip` looks, in order. */
  const IpSources: seq<string> := ["HTTP_CLIENT_IP", "HTTP_X_FORWARDED_FOR", "HTTP_X_FORWARDED",
                                   "HTTP_FORWARDED_FOR", "HTTP_FORWARDED", "REMOTE_ADDR"]

  /** `if (getenv(name))`: unset (false), "" and "0" are falsy. */
  predicate Truthy(env: Environment, name: string)
  {
    name in env && env[name] != "" && env[name] != "0"
  }

  /** `names[i]` is the first name whose variable is truthy. */
  predicate FirstTruthyAt(env: Environment, names: seq<string>, i: int)
  {
    0 <= i < |names| && Truthy(env, names[i]) && forall j :: 0 <= j < i ==> !Truthy(env, names[j])
  }

  /** The value of the first name whose variable is truthy. */
  function FirstTruthy(env: Environment, names: seq<string>): (r: Option<string>)
    ensures r.None? <==> forall i :: 0 <= i < |names| ==> !Truthy(env, names[i])
    ensures forall i :: FirstTruthyAt(env, names, i) ==> r == Some(env[names[i]])
  {
    if |names| == 0 then None
    else if Truthy(env, names[0]) then Some(env[names[0]])
    else
      assert forall i :: 1 <= i < |names| ==> names[i] == names[1..][i - 1];
      FirstTruthy(env, names[1..])
  }

  /** `get_ip()`: the first truthy source in priority order, else "UNKNOWN". */
  function GetIp(env: Environment): (r: string)
    ensures (forall i :: 0 <= i < |IpSources| ==> !Truthy(env, IpSources[i])) ==> r == "UNKNOWN"
    ensures forall i :: FirstTruthyAt(env, IpSources, i) ==> r == env[IpSources[i]]
  {
    FirstTruthy(env, IpSources).GetOr("UNKNOWN")
  }

  /** A forwarding proxy header loses to a client IP header that is set,
      and the socket address is used only when no header is truthy. */
  lemma IpPriority(env: Environment)
    ensures Truthy(env, "HTTP_CLIENT_IP") ==> GetIp(env) == env["HTTP_CLIENT_IP"]
    ensures (forall i :: 0 <= i < 5 ==> !Truthy(env, IpSources[i])) && Truthy(env, "REMOTE_ADDR")
      ==> GetIp(env) == env["REMOTE_ADDR"]
  {
    assert IpSources[0] == "HTTP_CLIENT_IP" && IpSources[5] == "REMOTE_ADDR";
  }

  // =====================================================================
  // Pattern matching for get_os / get_browser

  /** A `/.../i` pattern: a literal (where `.` is any character) or `a|b`. */
  datatype Pattern = Literal(text: string) | Either(left: Pattern, right: Pattern)

  /** One pattern character against one subject character. */
  predicate CharMatches(p: char, c: char)
  {
    if p == '.' then c != '\n' else Lower(p) == Lower(c)
  }

  /** The literal matches `s` at index `i`. */
  predicate LiteralAt(lit: string, s: string, i: int)
  {
    0 <= i && i + |lit| <= |s| && forall k :: 0 <= k < |lit| ==> CharMatches(lit[k], s[i + k])
  }

  /** `preg_match(pattern, s)`. */
  predicate Matches(p: Pattern, s: string)
  {
    match p
    case Literal(t) => exists i :: 0 <= i <= |s| - |t| && LiteralAt(t, s, i)
    case Either(a, b) => Matches(a, s) || Matches(b, s)
  }

  /** A row of `$os_array` / `$browser_array`. */
  datatype Rule = Rule(pattern: Pattern, name: string)

  /** `rules[k]` matches and no later rule does. */
  predicate LastMatchAt(rules: seq<Rule>, ua: string, k: int)
  {
    0 <= k < |rules| && Matches(rules[k].pattern, ua) && forall j :: k < j < |rules| ==> !Matches(rules[j].pattern, ua)
  }

  /** The `foreach` over a rule table: every matching rule overwrites the label. */
  function Scan(rules: seq<Rule>, ua: string, current: string): (r: string)
    ensures r == current || exists k :: 0 <= k < |rules| && r == rules[k].name
    ensures (forall j :: 0 <= j < |rules| ==> !Matches(rules[j].pattern, ua)) ==> r == current
    ensures forall k :: LastMatchAt(rules, ua, k) ==> r == rules[k].name
  {
    if |rules| == 0 then current
    else
      assert forall j :: 1 <= j < |rules| ==> rules[j] == rules[1..][j - 1];
      Scan(rules[1..], ua, if Matches(rules[0].pattern, ua) then rules[0].name else current)
  }

  const OsRules: seq<Rule> := [
    Rule(Literal("windows nt 10"), "Windows 10"),
    Rule(Literal("windows nt 6.3"), "Windows 8.1"),
    Rule(Literal("windows nt 6.2"), "Windows 8"),
    Rule(Literal("windows nt 6.1"), "Windows 7"),
    Rule(Literal("windows nt 6.0"), "Windows Vista"),
    Rule(Literal("windows nt 5.2"), "Windows Server 2003/XP x64"),
    Rule(Literal("windows nt 5.1"), "Windows XP"),
    Rule(Literal("windows xp"), "Windows XP"),
    Rule(Literal("windows nt 5.0"), "Windows 2000"),
    Rule(Literal("windows me"), "Windows ME"),
    Rule(Literal("win98"), "Windows 98"),
    Rule(Literal("win95"), "Windows 95"),
    Rule(Literal("win16"), "Windows 3.11"),
    Rule(Either(Literal("macintosh"), Literal("mac os x")), "Mac OS X"),
    Rule(Literal("mac_powerpc"), "Mac OS 9"),
    Rule(Literal("linux"), "Linux"),
    Rule(Literal("ubuntu"), "Ubuntu"),
    Rule(Literal("iphone"), "iPhone"),
    Rule(Literal("ipod"), "iPod"),
    Rule(Literal("ipad"), "iPad"),
    Rule(Literal("android"), "Android"),
    Rule(Literal("blackberry"), "BlackBerry"),
    Rule(Literal("webos"), "Mobile")
  ]

  const BrowserRules: seq<Rule> := [
    Rule(Literal("msie"), "Internet Explorer"),
    Rule(Literal("Trident"), "Internet Explorer"),
    Rule(Literal("firefox"), "Firefox"),
    Rule(Literal("safari"), "Safari"),
    Rule(Literal("chrome"), "Chrome"),
    Rule(Literal("edge"), "Edge"),
    Rule(Literal("opera"), "Opera"),
    Rule(Literal("netscape"), "Netscape"),
    Rule(Literal("maxthon"), "Maxthon"),
    Rule(Literal("konqueror"), "Konqueror"),
    Rule(Literal("ubrowser"), "UC Browser"),
    Rule(Literal("mobile"), "Handheld")
  ]

  /** `get_os()`. */
  function GetOs(ua: string): (r: string)
    ensures r == "Unknown OS Platform" || exists k :: 0 <= k < |OsRules| && r == OsRules[k].name
    ensures (forall j :: 0 <= j < |OsRules| ==> !Matches(OsRules[j].pattern, ua)) ==> r == "Unknown OS Platform"
  {
    Scan(OsRules, ua, "Unknown OS Platform")
  }

  /** `get_browser()`. */
  function GetBrowser(ua: string): (r: string)
    ensures r == "Unknown Browser" || exists k :: 0 <= k < |BrowserRules| && r == BrowserRules[k].name
    ensures (forall j :: 0 <= j < |BrowserRules| ==> !Matches(BrowserRules[j].pattern, ua)) ==> r == "Unknown Browser"
  {
    Scan(BrowserRules, ua, "Unknown Browser")
  }

  /** The last matching OS rule wins: Android beats Linux (which precedes
      it) unless BlackBerry or webOS (which follow it) also match; no match
      at all gives the default. */
  lemma OsLastMatchWins(ua: string)
    ensures Matches(Literal("android"), ua) && !Matches(Literal("blackberry"), ua) && !Matches(Literal("webos"), ua)
      ==> GetOs(ua) == "Android"
    ensures Matches(Literal("webos"), ua) ==> GetOs(ua) == "Mobile"
    ensures (forall j :: 0 <= j < |OsRules| ==> !Matches(OsRules[j].pattern, ua)) ==> GetOs(ua) == "Unknown OS Platform"
  {
    assert OsRules[20].pattern == Literal("android") && OsRules[20].name == "Android";
    assert OsRules[21].pattern == Literal("blackberry") && OsRules[22].pattern == Literal("webos");
  }

  /** The last matching browser rule wins: any UA mentioning "mobile" is
      "Handheld"; Chrome beats Safari (which precedes it) unless a later rule
      matches too. */
  lemma BrowserLastMatchWins(ua: string)
    ensures Matches(Literal("mobile"), ua) ==> GetBrowser(ua) == "Handheld"
    ensures Matches(Literal("chrome"), ua) && (forall j :: 5 <= j < |BrowserRules| ==> !Matches(BrowserRules[j].pattern, ua))
      ==> GetBrowser(ua) == "Chrome"
    ensures (forall j :: 0 <= j < |BrowserRules| ==> !Matches(BrowserRules[j].pattern, ua)) ==> GetBrowser(ua) == "Unknown Browser"
  {
    assert BrowserRules[11].pattern == Literal("mobile") && BrowserRules[11].name == "Handheld";
    assert BrowserRules[4].pattern == Literal("chrome") && BrowserRules[4].name == "Chrome";
  }

  /** `.` in "windows nt 6.3" is a wildcard: any character but a newline
      between "6" and "3" matches. */
  lemma DotIsWildcard(c: char)
    requires c != '\n'
    ensures Matches(Literal("windows nt 6.3"), "windows nt 6" + [c] + "3")
  {
    assert LiteralAt("windows nt 6.3", "windows nt 6" + [c] + "3", 0);
  }

  // =====================================================================
  // errorMessage

  const CloseButton: string := "<button type='button' class='btn-close' data-bs-dismiss='alert' aria-label='Close'></button>"

  function DismissClass(dismissible: bool): string
  {
    if dismissible then "alert-dismissible" else ""
  }

  function CloseMarkup(dismissible: bool): string
  {
    if dismissible then CloseButton else ""
  }

  /** The opening tag of an alert box up to the paragraph. */
  function BoxHead(color: string, dismissible: bool): string
  {
    "<div class='alert alert-" + color + " " + DismissClass(dismissible) + " fade show' role='alert'><p>"
  }

  function BoxTail(dismissible: bool): string
  {
    "</p>" + CloseMarkup(dismissible) + "</div>"
  }

  /** An alert box: head, paragraph body, tail. */
  function Box(color: string, dismissible: bool, body: string): string
  {
    BoxHead(color, dismissible) + body + BoxTail(dismissible)
  }

  /** The paragraph of the fall-back box for an unknown type, in pieces. */
  const UnknownTypeLead: string := "<i class='far fa-circle-xmark'></i> <b style='color:red;'>WARNING:</b> This error message does not have a proper error type! "
  const UnknownTypeMid: string := "<br> Please change it!!!! <b>(This message still returned the message \""
  const UnknownTypeEnd: string := "\")</b>"

  /** The `<code>` element naming the offending type. */
  function TypeCode(errorType: string): string
  {
    "<code>$errorType = \"" + errorType + "\"</code>"
  }

  /** The colour class of a box: the type itself when known, otherwise danger. */
  function AlertColor(errorType: string): (r: string)
    ensures r in {"success", "warning", "danger"}
    ensures r == errorType <==> errorType in {"success", "warning", "danger"}
  {
    if errorType == "success" || errorType == "warning" || errorType == "danger" then errorType else "danger"
  }

  /** The icon that opens the paragraph of a known type. */
  function Icon(errorType: string): string
  {
    if errorType == "success" then "<i class='far fa-circle-check fa-fw'></i> "
    else if errorType == "warning" then "<i class='far fa-circle-exclamation'></i> "
    else "<i class='far fa-circle-xmark'></i> "
  }

  /** The paragraph of each `match` arm: icon and message for a known type,
      a warning naming the type for any other. */
  function AlertBody(errorType: string, message: string): string
  {
    if errorType in {"success", "warning", "danger"} then Icon(errorType) + message
    else UnknownTypeLead + TypeCode(errorType) + UnknownTypeMid + message + UnknownTypeEnd
  }

  /** `errorMessage($errorType, $message, $dismissible)`: the four `match`
      arms share the box and differ in colour class and paragraph. */
  function ErrorMessage(errorType: string, message: string, dismissible: bool): (r: string)
    ensures StartsWith(r, BoxHead(AlertColor(errorType), dismissible))
    ensures EndsWith(r, BoxTail(dismissible))
  {
    BoxParts(AlertColor(errorType), dismissible, AlertBody(errorType, message));
    Box(AlertColor(errorType), dismissible, AlertBody(errorType, message))
  }

  lemma {:induction false} ContainsTransitive(s: string, mid: string, x: string)
    requires Contains(s, mid) && Contains(mid, x)
    ensures Contains(s, x)
  {
    var i :| OccursAt(s, mid, i);
    var j :| OccursAt(mid, x, j);
    forall k | 0 <= k < |x| ensures s[i + j + k] == x[k] {
      assert s[i + j + k] == s[i..i + |mid|][j + k] == mid[j + k] == mid[j..j + |x|][k];
    }
    assert s[i + j..i + j + |x|] == x;
    assert OccursAt(s, x, i + j);
  }

  /** Every paragraph shows the message; an unknown type's paragraph also
      names the type. */
  lemma AlertBodyShowsMessage(errorType: string, message: string)
    ensures Contains(AlertBody(errorType, message), message)
    ensures AlertColor(errorType) != errorType ==> Contains(AlertBody(errorType, message), TypeCode(errorType))
  {
    var b := AlertBody(errorType, message);
    if errorType in {"success", "warning", "danger"} {
      assert b == Icon(errorType) + message + "";
      ContainsInConcat(Icon(errorType), message, "");
    } else {
      assert b == (UnknownTypeLead + TypeCode(errorType) + UnknownTypeMid) + message + UnknownTypeEnd;
      ContainsInConcat(UnknownTypeLead + TypeCode(errorType) + UnknownTypeMid, message, UnknownTypeEnd);
      assert b == UnknownTypeLead + TypeCode(errorType) + (UnknownTypeMid + message + UnknownTypeEnd);
      ContainsInConcat(UnknownTypeLead, TypeCode(errorType), UnknownTypeMid + message + UnknownTypeEnd);
    }
  }

  /** A box opens with its head, ends with its tail and contains its body. */
  lemma BoxParts(color: string, dismissible: bool, body: string)
    ensures StartsWith(Box(color, dismissible, body), BoxHead(color, dismissible))
    ensures EndsWith(Box(color, dismissible, body), BoxTail(dismissible))
    ensures Contains(Box(color, dismissible, body), body)
  {
    var h, t := BoxHead(color, dismissible), BoxTail(dismissible);
    var r := h + body + t;
    assert r[..|h|] == h;
    assert r[|r| - |t|..] == t;
    ContainsInConcat(h, body, t);
  }

  /** A dismissible box's head carries the `alert-dismissible` class. */
  lemma DismissibleHead(color: string)
    ensures Contains(BoxHead(color, true), "alert-dismissible")
  {
    var a := "<div class='alert alert-" + color + " ";
    var b := " fade show' role='alert'><p>";
    assert BoxHead(color, true) == a + DismissClass(true) + b;
    ContainsInConcat(a, "alert-dismissible", b);
  }

  /** The structure of every alert: an opening tag with the type's colour
      class (danger for an unknown type) that carries `alert-dismissible`
      exactly when dismissible, the message inside, and a close button
      before `</div>` exactly when dismissible. An unknown type still shows
      the message and names the offending type. */
  lemma ErrorMessageShape(errorType: string, message: string, dismissible: bool)
    ensures var r := ErrorMessage(errorType, message, dismissible);
      && StartsWith(r, BoxHead(AlertColor(errorType), dismissible))
      && EndsWith(r, BoxTail(dismissible))
      && Contains(r, message)
      && (dismissible ==> Contains(r, "alert-dismissible"))
      && (AlertColor(errorType) != errorType ==> Contains(r, TypeCode(errorType)))
  {
    var color, body := AlertColor(errorType), AlertBody(errorType, message);
    var r := Box(color, dismissible, body);
    BoxParts(color, dismissible, body);
    AlertBodyShowsMessage(errorType, message);
    ContainsTransitive(r, body, message);
    if color != errorType {
      ContainsTransitive(r, body, TypeCode(errorType));
    }
    DismissibleHead(color);
    if dismissible {
      var h := BoxHead(color, true);
      assert OccursAt(r, h, 0);
      ContainsTransitive(r, h, "alert-dismissible");
    }
  }

  // =====================================================================
  // logAction

  /** `match($page)`: the plural page names are singularised; anything not
      listed raises `UnhandledMatchError` (here `None`). */
  function NormalisePage(page: string): (r: Option<string>)
    ensures r.Some? ==> r.value == page || r.value + "s" == page || page == "categories" || page == "viewInfo"
    ensures r.Some? <==> page in {"categories", "services", "events", "viewInfo", "users", "teams", "worshippers",
                                  "login", "logout", "speakers", "permissions", "roles", "settings"}
    ensures page == "categories" ==> r == Some("category")
    ensures page in {"events", "viewInfo"} ==> r == Some("event")
    ensures page in {"services", "users", "teams", "worshippers", "speakers"} ==> r.Some? && r.value + "s" == page
    ensures page in {"login", "logout", "permissions", "roles", "settings"} ==> r == Some(page)
  {
    if page == "categories" then Some("category")
    else if page == "services" then Some("service")
    else if page == "events" || page == "viewInfo" then Some("event")
    else if page == "users" then Some("user")
    else if page == "teams" then Some("team")
    else if page == "worshippers" then Some("worshipper")
    else if page == "speakers" then Some("speaker")
    else if page in {"login", "logout", "permissions", "roles", "settings"} then Some(page)
    else None
  }

  /** The settings page keeps its name and the email action is "Email". */
  lemma SettingsEmail()
    ensures NormalisePage("settings") == Some("settings")
    ensures ActionVerb("email") == Some("Email")
  {
  }

  /** `match($action)`: the action's verb, capitalised; login and logout are both "Log". */
  function ActionVerb(action: string): (r: Option<string>)
    ensures r.Some? <==> action in {"create", "modify", "delete", "view", "login", "logout", "email"}
    ensures r.Some? && action != "login" && action != "logout" ==>
      |r.value| == |action| > 0 && r.value[1..] == action[1..] && r.value[0] == (action[0] as int - 32) as char
    ensures action == "login" || action == "logout" ==> r == Some("Log")
  {
    if action == "create" then Some("Create")
    else if action == "modify" then Some("Modify")
    else if action == "delete" then Some("Delete")
    else if action == "view" then Some("View")
    else if action == "login" || action == "logout" then Some("Log")
    else if action == "email" then Some("Email")
    else None
  }

  /** `match($page)` on the normalised page, building the description. */
  function Description(page: string, verb: string, customMessage: string): (r: string)
    ensures StartsWith(r, verb)
    ensures page == "login" ==> EndsWith(r, " user in")
    ensures page == "logout" ==> EndsWith(r, " user out")
    ensures page != "login" && page != "logout" ==> Contains(r, page) && Contains(r, customMessage)
  {
    if page == "login" then verb + " user in"
    else if page == "logout" then verb + " user out"
    else
      var r := verb + " " + page + " <b>" + customMessage + "</b>";
      assert r[..|verb|] == verb;
      assert r == (verb + " ") + page + (" <b>" + customMessage + "</b>");
      ContainsInConcat(verb + " ", page, " <b>" + customMessage + "</b>");
      assert r == (verb + " " + page + " <b>") + customMessage + "</b>";
      ContainsInConcat(verb + " " + page + " <b>", customMessage, "</b>");
      r
  }

  /** The columns `logAction` inserts, in order. */
  const LogColumns: seq<string> := ["dateTime", "userID", "userIP", "userOS", "userBrowser",
                                    "page", "actionType", "activityStatus", "description"]

  /** The request-scoped globals `logAction` reads: the environment and the
      `User-Agent` header, `$fullDateTime`, and the acting user's id. */
  datatype RequestContext = RequestContext(env: Environment, userAgent: string, fullDateTime: string, actorId: Value)

  /** Why `logAction` raises `UnhandledMatchError`. */
  datatype MatchError = UnknownPage(page: string) | UnknownAction(action: string)

  /** The nine values `logAction` binds, in column order. */
  function LogValues(ctx: RequestContext, page: string, action: string, status: string, description: string): seq<Value>
  {
    [ctx.fullDateTime, ctx.actorId, GetIp(ctx.env), GetOs(ctx.userAgent), GetBrowser(ctx.userAgent),
     page, action, status, description]
  }

  /** The `match` half of `logAction`: the normalised page and the
      description, or the match error it raises. A missing custom message
      (`false`) prints as "". */
  function Describe(page: string, action: string, customMessage: Option<string>): (r: Result<(string, string), MatchError>)
    ensures NormalisePage(page).None? ==> r == Failure(UnknownPage(page))
    ensures NormalisePage(page).Some? && ActionVerb(action).None? ==> r == Failure(UnknownAction(action))
    ensures r.Success? <==> NormalisePage(page).Some? && ActionVerb(action).Some?
    ensures r.Success? ==> r.value.0 == NormalisePage(page).value && StartsWith(r.value.1, ActionVerb(action).value)
    ensures r.Success? && page == "login" ==> EndsWith(r.value.1, " user in")
    ensures r.Success? && page == "logout" ==> EndsWith(r.value.1, " user out")
  {
    match NormalisePage(page)
    case None => Failure(UnknownPage(page))
    case Some(p) =>
      match ActionVerb(action)
      case None => Failure(UnknownAction(action))
      case Some(verb) =>
        assert page == "login" ==> p == "login";
        assert page == "logout" ==> p == "logout";
        Success((p, Description(p, verb, customMessage.GetOr(""))))
  }

  /** `logAction($page, $action, $status, $customMessage)`: the INSERT into
      `logs` it issues, or the match error it raises. A recognised page and
      action always append exactly one row, holding the nine values under
      their columns. */
  function LogAction(logs: Table, page: string, action: string, status: string,
                     customMessage: Option<string>, ctx: RequestContext): (r: Result<Call<Table>, MatchError>)
    ensures NormalisePage(page).None? ==> r == Failure(UnknownPage(page))
    ensures NormalisePage(page).Some? && ActionVerb(action).None? ==> r == Failure(UnknownAction(action))
    ensures r.Success? <==> NormalisePage(page).Some? && ActionVerb(action).Some?
    ensures r.Success? ==> forall i :: i in r.value.stmt.binds <==> 1 <= i <= |LogColumns|
    ensures r.Success? ==> |r.value.result| == |logs| + 1 && r.value.result[..|logs|] == logs
    ensures r.Success? ==>
      var d := Describe(page, action, customMessage).value;
      var values := LogValues(ctx, d.0, action, status, d.1);
      var row := r.value.result[|logs|];
      forall i :: 0 <= i < |LogColumns| ==> LogColumns[i] in row && row[LogColumns[i]] == values[i]
  {
    match Describe(page, action, customMessage)
    case Failure(e) => Failure(e)
    case Success(d) =>
      var insert := PdoInsertQuery(logs, "logs", LogColumns, LogValues(ctx, d.0, action, status, d.1));
      LogColumnsDistinct();
      Success(Call(insert.stmt, insert.result.value))
  }

  /** A recognised page and action insert one row holding the normalised
      page, the action, the status, the client's IP and the actor. */
  lemma LogActionRow(logs: Table, page: string, action: string, status: string,
                     customMessage: Option<string>, ctx: RequestContext)
    requires NormalisePage(page).Some? && ActionVerb(action).Some?
    ensures var r := LogAction(logs, page, action, status, customMessage, ctx);
      && r.Success?
      && var row := r.value.result[|logs|];
      && "page" in row && row["page"] == NormalisePage(page).value
      && "actionType" in row && row["actionType"] == action
      && "activityStatus" in row && row["activityStatus"] == status
      && "userIP" in row && row["userIP"] == GetIp(ctx.env)
      && "userID" in row && row["userID"] == ctx.actorId
  {
    var r := LogAction(logs, page, action, status, customMessage, ctx);
    var row := r.value.result[|logs|];
    var d := Describe(page, action, customMessage).value;
    var values := LogValues(ctx, d.0, action, status, d.1);
    assert values[1] == ctx.actorId && values[2] == GetIp(ctx.env) && values[5] == d.0;
    assert values[6] == action && values[7] == status;
    assert LogColumns[1] == "userID" && LogColumns[2] == "userIP" && LogColumns[5] == "page";
    assert LogColumns[6] == "actionType" && LogColumns[7] == "activityStatus";
  }

  /** The description logged for a login or a logout names the event. */
  lemma LogActionDescribesSession(logs: Table, page: string, action: string, status: string,
                                  customMessage: Option<string>, ctx: RequestContext)
    requires page == "login" || page == "logout"
    requires ActionVerb(action).Some?
    ensures var r := LogAction(logs, page, action, status, customMessage, ctx);
      && r.Success?
      && var row := r.value.result[|logs|];
      && "description" in row
      && (page == "login" ==> EndsWith(row["description"], " user in"))
      && (page == "logout" ==> EndsWith(row["description"], " user out"))
  {
    var r := LogAction(logs, page, action, status, customMessage, ctx);
    var d := Describe(page, action, customMessage).value;
    assert LogColumns[8] == "description";
    assert r.value.result[|logs|][LogColumns[8]] == LogValues(ctx, d.0, action, status, d.1)[8] == d.1;
  }

  /** The nine log columns are distinct. */
  lemma LogColumnsDistinct()
    ensures NoDuplicates(LogColumns)
  {
    forall i, j | 0 <= i < j < |LogColumns| ensures LogColumns[i] != LogColumns[j] {
      var x, y := LogColumns[i], LogColumns[j];
      assert |x| != |y| || x[0] != y[0] || x[|x| - 1] != y[|y| - 1];
    }
  }

  /** The statement `logAction` prepares has one `?` per column: nine. */
  lemma LogInsertPlaceholders()
    ensures CountChar('?', InsertSql("logs", LogColumns)) == 9
  {
    forall i | 0 <= i < |LogColumns| ensures '?' !in LogColumns[i] {
    }
    InsertSqlPlaceholders("logs", LogColumns);
  }
}

=== FILE: nevi.dfy ===
/** The `Nevi` class: `time_ago`, the "n units ago" phrase for a timestamp.
    The clock (`time()`) is an input. */
module Nevi {
  import opened Text

  /** A row of the `$condition` table: a length of time in seconds and its name. */
  datatype Unit = Unit(secs: nat, name: string)

  /** The `$condition` table, longest unit first (a year is twelve 30-day months). */
  const Units: seq<Unit> := [
    Unit(12 * 30 * 24 * 60 * 60, "year"),
    Unit(30 * 24 * 60 * 60, "month"),
    Unit(7 * 24 * 60 * 60, "week"),
    Unit(24 * 60 * 60, "day"),
    Unit(60 * 60, "hour"),
    Unit(60, "minute"),
    Unit(1, "second")
  ]

  const JustNow: string := "less than 1 second ago"

  /** The table runs from the longest unit to the shortest, which is one second. */
  lemma UnitsDescending()
    ensures forall i, j :: 0 <= i < j < |Units| ==> Units[i].secs > Units[j].secs
    ensures Units[|Units| - 1].secs == 1
  {
  }

  /** `Units[k]` is the first (longest) unit that fits into `diff` seconds. */
  predicate LongestFit(diff: int, k: int)
  {
    0 <= k < |Units| && diff >= Units[k].secs && forall j :: 0 <= j < k ==> diff < Units[j].secs
  }

  /** PHP `round($a / $b)` for a non-negative quotient: the nearest whole
      number, halves rounded up. */
  function RoundHalfUp(a: nat, b: nat): (r: nat)
    requires b > 0
    ensures 2 * b * r <= 2 * a + b < 2 * b * (r + 1)
  {
    (2 * a + b) / (2 * b)
  }

  /** The phrase for `count` units: the number, a space, the unit name,
      an "s" when the count exceeds one, and " ago". */
  function Phrase(count: nat, name: string): string
  {
    Decimal(count) + " " + name + (if count > 1 then "s" else "") + " ago"
  }

  /** `time_ago($time)` at clock reading `now`: under a second gives the
      fixed phrase; otherwise the longest unit that fits is chosen and the
      difference is expressed in it, rounded to the nearest whole number. */
  method TimeAgo(now: int, time: int) returns (r: string)
    ensures now - time < 1 ==> r == JustNow
    ensures now - time >= 1 ==>
      exists k :: LongestFit(now - time, k) && r == Phrase(RoundHalfUp(now - time, Units[k].secs), Units[k].name)
  {
    var diff := now - time;
    if diff < 1 {
      return JustNow;
    }
    var i := 0;
    while diff < Units[i].secs
      invariant 0 <= i < |Units|
      invariant forall j :: 0 <= j < i ==> diff < Units[j].secs
      decreases |Units| - i
    {
      i := i + 1;
    }
    var t := RoundHalfUp(diff, Units[i].secs);
    r := Phrase(t, Units[i].name);
    assert LongestFit(diff, i);
  }

  /** The longest unit that fits is unique: the choice is well defined. */
  lemma LongestFitUnique(diff: int, k: int, k': int)
    requires LongestFit(diff, k) && LongestFit(diff, k')
    ensures k == k'
  {
  }

  /** A unit that fits never shows a count of zero. */
  lemma CountAtLeastOne(diff: nat, k: int)
    requires LongestFit(diff, k)
    ensures RoundHalfUp(diff, Units[k].secs) >= 1
  {
  }

  /** A whole number of units is shown exactly. */
  lemma {:induction false} ExactCount(n: nat, b: nat)
    requires b > 0
    ensures RoundHalfUp(n * b, b) == n
  {
    var r := RoundHalfUp(n * b, b);
    assert 2 * b * (r + 1) == 2 * b * r + 2 * b;
    assert 2 * b * (n + 1) == 2 * b * n + 2 * b;
    assert 2 * (n * b) == 2 * b * n;
    CancelLess(2 * b, r, n + 1);
    CancelLess(2 * b, n, r + 1);
  }

  lemma CancelLess(a: nat, x: nat, y: nat)
    requires a * x < a * y
    ensures x < y
  {
  }

  /** The phrase is the count, the unit and "ago", separated by single
      spaces; the count reads back from the first field. */
  lemma PhraseFields(count: nat, name: string)
    requires ' ' !in name
    ensures var fields := Split(' ', Phrase(count, name));
      && fields == [Decimal(count), name + (if count > 1 then "s" else ""), "ago"]
      && ParseDecimal(fields[0]) == count
  {
    var d, n := Decimal(count), name + (if count > 1 then "s" else "");
    assert ' ' !in d by {
      forall i | 0 <= i < |d| ensures d[i] != ' ' {
        assert IsDigit(d[i]);
      }
    }
    assert ' ' !in n;
    var parts := [d, n, "ago"];
    assert Join([' '], parts) == Phrase(count, name) by {
      assert Join([' '], parts[2..]) == "ago";
      assert Join([' '], parts[1..]) == n + " " + "ago";
    }
    SplitJoin(' ', parts);
    DecimalRoundTrip(count);
  }

  /** The unit is pluralised exactly when the count is above one. */
  lemma PluralExactlyAboveOne(count: nat, name: string)
    requires |name| > 0 && name[|name| - 1] != 's'
    ensures EndsWith(Phrase(count, name), "s ago") <==> count > 1
  {
    var p := Phrase(count, name);
    var head := Decimal(count) + " " + name;
    if count > 1 {
      assert p == head + "s ago";
      assert p[|p| - 5..] == "s ago";
    } else {
      assert p == head + " ago";
      assert p[|p| - 5] == head[|head| - 1] == name[|name| - 1];
    }
  }

  /** No unit name holds a space or ends with "s", so every phrase parses
      back and is plural exactly when its count exceeds one. */
  lemma UnitNamesPlain()
    ensures forall k :: 0 <= k < |Units| ==> ' ' !in Units[k].name && |Units[k].name| > 0 && Units[k].name[|Units[k].name| - 1] != 's'
  {
  }
}

=== FILE: results.dfy ===
/** Option and Result values used wherever the PHP code returns `false`
    for "nothing found" or raises an error. */
module Results {

  /** A value that may be missing; PHP's `false`/`null` return is `None`. */
  datatype Option<+T> = None | Some(value: T) {

    /** The encapsulated value, or `default` when missing. */
    function GetOr(default: T): T {
      match this
      case Some(v) => v
      case None => default
    }
  }

  /** Either a value or the error the PHP code would raise. */
  datatype Result<+T, +E> = Success(value: T) | Failure(error: E)
}

=== FILE: text.dfy ===
/** The string primitives the PHP code leans on: `implode`/`explode`,
    substring search, ASCII case folding, decimal and hexadecimal text
    (`bin2hex`). */
module Text {

  /** A byte, as returned by `random_bytes`. */
  type Byte = x: int | 0 <= x < 256

  // ---------------------------------------------------------------------
  // implode / explode

  /** PHP `implode(sep, parts)`: the parts with `sep` between neighbours. */
  function Join(sep: string, parts: seq<string>): string
  {
    if |parts| == 0 then ""
    else if |parts| == 1 then parts[0]
    else parts[0] + sep + Join(sep, parts[1..])
  }

  /** PHP `explode(sep, s)` for a one-character separator. */
  function Split(sep: char, s: string): (r: seq<string>)
    ensures |r| >= 1
  {
    if |s| == 0 then [""]
    else
      var rest := Split(sep, s[1..]);
      if s[0] == sep then [""] + rest
      else [[s[0]] + rest[0]] + rest[1..]
  }

  /** Splitting text whose head holds no separator glues that head onto the first field. */
  lemma {:induction false} SplitPrefix(sep: char, p: string, t: string)
    requires sep !in p
    ensures Split(sep, p + t) == [p + Split(sep, t)[0]] + Split(sep, t)[1..]
  {
    if |p| == 0 {
      var r := Split(sep, t);
      assert p + t == t;
      assert p + r[0] == r[0];
      assert r == [r[0]] + r[1..];
    } else {
      assert (p + t)[1..] == p[1..] + t;
      assert sep !in p[1..] by {
        forall k | 0 <= k < |p[1..]| ensures p[1..][k] != sep {
          assert p[1..][k] == p[k + 1];
        }
      }
      SplitPrefix(sep, p[1..], t);
      assert [p[0]] + (p[1..] + Split(sep, t)[0]) == p + Split(sep, t)[0];
    }
  }

  /** `explode` undoes `implode` when no part holds the separator
      (and there is at least one part: `implode` of nothing is "",
      which `explode` reads back as one empty field). */
  lemma {:induction false} SplitJoin(sep: char, parts: seq<string>)
    requires |parts| >= 1
    requires forall i :: 0 <= i < |parts| ==> sep !in parts[i]
    ensures Split(sep, Join([sep], parts)) == parts
  {
    if |parts| == 1 {
      SplitPrefix(sep, parts[0], "");
      assert parts[0] + "" == parts[0];
    } else {
      var j := Join([sep], parts[1..]);
      SplitJoin(sep, parts[1..]);
      assert parts[0] + [sep] + j == parts[0] + ([sep] + j);
      SplitPrefix(sep, parts[0], [sep] + j);
      assert ([sep] + j)[1..] == j;
      assert Split(sep, [sep] + j) == [""] + parts[1..];
      assert parts[0] + "" == parts[0];
    }
  }

  // ---------------------------------------------------------------------
  // counting and searching

  /** How many times `c` occurs in `s`. */
  function CountChar(c: char, s: string): nat
  {
    if |s| == 0 then 0
    else (if s[0] == c then 1 else 0) + CountChar(c, s[1..])
  }

  lemma {:induction false} CountCharAppend(c: char, a: string, b: string)
    ensures CountChar(c, a + b) == CountChar(c, a) + CountChar(c, b)
  {
    if |a| == 0 {
      assert a + b == b;
    } else {
      assert (a + b)[1..] == a[1..] + b;
      CountCharAppend(c, a[1..], b);
    }
  }

  lemma {:induction false} CountCharAbsent(c: char, s: string)
    requires c !in s
    ensures CountChar(c, s) == 0
  {
    if |s| > 0 {
      assert c !in s[1..] by {
        forall k | 0 <= k < |s[1..]| ensures s[1..][k] != c {
          assert s[1..][k] == s[k + 1];
        }
      }
      CountCharAbsent(c, s[1..]);
    }
  }

  /** `sub` occurs in `s` starting at index `i`. */
  predicate OccursAt(s: string, sub: string, i: int)
  {
    0 <= i <= |s| - |sub| && s[i..i + |sub|] == sub
  }

  /** `sub` occurs somewhere in `s`. */
  ghost predicate Contains(s: string, sub: string)
  {
    exists i :: OccursAt(s, sub, i)
  }

  lemma ContainsInConcat(a: string, b: string, c: string)
    ensures Contains(a + b + c, b)
  {
    var s := a + b + c;
    assert s[|a|..|a| + |b|] == b;
    assert OccursAt(s, b, |a|);
  }

  /** `s` ends with `suffix`. */
  predicate EndsWith(s: string, suffix: string)
  {
    |suffix| <= |s| && s[|s| - |suffix|..] == suffix
  }

  /** `s` starts with `prefix`. */
  predicate StartsWith(s: string, prefix: string)
  {
    |prefix| <= |s| && s[..|prefix|] == prefix
  }

  /** A concatenation starts with its left part and ends with its right. */
  lemma ConcatEnds(a: string, b: string)
    ensures StartsWith(a + b, a) && EndsWith(a + b, b)
  {
    assert (a + b)[..|a|] == a;
    assert (a + b)[|a + b| - |b|..] == b;
  }

  // ---------------------------------------------------------------------
  // ASCII case folding (PCRE's `/i` without the `u` flag)

  function Lower(c: char): (r: char)
  {
    if 'A' <= c <= 'Z' then (c as int + 32) as char else c
  }

  // ---------------------------------------------------------------------
  // decimal text (PHP's conversion of a whole number to a string)

  predicate IsDigit(c: char)
  {
    '0' <= c <= '9'
  }

  function Digit(d: nat): (c: char)
    requires d < 10
    ensures IsDigit(c)
  {
    ('0' as int + d) as char
  }

  /** The decimal text of `n`, without leading zeros. */
  function Decimal(n: nat): (r: string)
    ensures |r| >= 1
    ensures forall i :: 0 <= i < |r| ==> IsDigit(r[i])
    ensures r[0] == '0' ==> n == 0
  {
    if n < 10 then [Digit(n)] else Decimal(n / 10) + [Digit(n % 10)]
  }

  /** The number a string of decimal digits denotes. */
  function ParseDecimal(s: string): nat
    requires forall i :: 0 <= i < |s| ==> IsDigit(s[i])
  {
    if |s| == 0 then 0
    else
      assert IsDigit(s[|s| - 1]);
      ParseDecimal(s[..|s| - 1]) * 10 + (s[|s| - 1] as int - '0' as int)
  }

  /** Decimal text denotes the number it was written from. */
  lemma {:induction false} DecimalRoundTrip(n: nat)
    ensures ParseDecimal(Decimal(n)) == n
  {
    if n >= 10 {
      var s := Decimal(n);
      assert s[..|s| - 1] == Decimal(n / 10);
      DecimalRoundTrip(n / 10);
    }
  }

  // ---------------------------------------------------------------------
  // hexadecimal text (PHP `bin2hex`)

  predicate IsLowerHex(s: string)
  {
    forall i :: 0 <= i < |s| ==> ('0' <= s[i] <= '9' || 'a' <= s[i] <= 'f')
  }

  function HexDigit(n: int): (c: char)
    requires 0 <= n < 16
  {
    if n < 10 then ('0' as int + n) as char else ('a' as int + n - 10) as char
  }

  function HexValue(c: char): int
  {
    if '0' <= c <= '9' then c as int - '0' as int else c as int - 'a' as int + 10
  }

  /** PHP `bin2hex`: two lower-case hex digits per byte, high nibble first. */
  function Bin2Hex(bytes: seq<Byte>): (r: string)
    ensures |r| == 2 * |bytes|
    ensures IsLowerHex(r)
  {
    if |bytes| == 0 then ""
    else [HexDigit(bytes[0] / 16), HexDigit(bytes[0] % 16)] + Bin2Hex(bytes[1..])
  }

  /** PHP `hex2bin` on lower-case hex text of even length. */
  function Hex2Bin(s: string): seq<Byte>
    requires IsLowerHex(s) && |s| % 2 == 0
  {
    if |s| == 0 then []
    else
      assert IsLowerHex(s[2..]) by {
        forall i | 0 <= i < |s[2..]| ensures '0' <= s[2..][i] <= '9' || 'a' <= s[2..][i] <= 'f' {
          assert s[2..][i] == s[i + 2];
        }
      }
      [HexValue(s[0]) * 16 + HexValue(s[1])] + Hex2Bin(s[2..])
  }

  /** `bin2hex` loses nothing: decoding its text gives the bytes back. */
  lemma {:induction false} HexRoundTrip(bytes: seq<Byte>)
    ensures Hex2Bin(Bin2Hex(bytes)) == bytes
  {
    if |bytes| > 0 {
      var s := Bin2Hex(bytes);
      assert s[2..] == Bin2Hex(bytes[1..]);
      HexRoundTrip(bytes[1..]);
      assert bytes == [bytes[0]] + bytes[1..];
    }
  }
}

=== FILE: user.dfy ===
/** The `User` class: the user lookup, the count of upcoming events a user
    has said they can attend, and the start of password recovery.

    `strtotime` is a parameter (`ToTime`), assumed total; `random_bytes`
    and the outcome of sending the mail are inputs. */
module User {
  import opened Results
  import opened Text
  import opened Database
  import opened Log

  // =====================================================================
  // get_user_info

  /** `get_user_info($userID)`: the first user row whose id is `userID`,
      or `None` (PHP `false`) when there is none. */
  function GetUserInfo(users: Table, userId: Value): (r: Call<Option<Row>>)
    ensures r.result.None? <==> forall j :: 0 <= j < |users| ==> !Eq("id", userId)(users[j])
    ensures r.result.Some? ==> "id" in r.result.value && r.result.value["id"] == userId
    ensures r.result.Some? ==>
      exists i :: 0 <= i < |users| && users[i] == r.result.value && forall j :: 0 <= j < i ==> !Eq("id", userId)(users[j])
  {
    PdoQuery(users, "users", "*", ColumnIs("id", userId))
  }

  /** When ids are unique, the row found is the only row with that id. */
  lemma {:induction false} GetUserInfoUnique(users: Table, userId: Value, k: int)
    requires forall i, j :: 0 <= i < j < |users| && "id" in users[i] && "id" in users[j] ==> users[i]["id"] != users[j]["id"]
    requires 0 <= k < |users| && Eq("id", userId)(users[k])
    ensures GetUserInfo(users, userId).result == Some(users[k])
  {
    var r := GetUserInfo(users, userId).result;
    var i :| 0 <= i < |users| && users[i] == r.value && forall j :: 0 <= j < i ==> !Eq("id", userId)(users[j]);
  }

  // =====================================================================
  // get_total_registered_events

  /** `strtotime`, uninterpreted: a date/time text to a Unix timestamp. */
  type ToTime = string -> int

  /** The PHP values `$serviceStartTime` and `$serviceEndTime` take: unset
      or NULL, a string from the database, or a timestamp. */
  datatype PhpValue = Null | Str(s: string) | Int(i: int)

  /** A fetched column as PHP holds it: NULL stays null. */
  function Raw(r: Row, column: string): PhpValue
  {
    if column in r then Str(r[column]) else Null
  }

  /** `$v != ""` under PHP 8 loose comparison: null equals "", and an
      integer's decimal text is never empty. */
  predicate NonEmpty(v: PhpValue)
  {
    match v
    case Null => false
    case Str(s) => s != ""
    case Int(_) => true
  }

  /** PHP's decimal text of an integer. */
  function IntText(i: int): string
  {
    if i < 0 then "-" + Decimal(-i) else Decimal(i)
  }

  /** `"$v"`: null interpolates as "". */
  function Interpolate(v: PhpValue): string
  {
    match v
    case Null => ""
    case Str(s) => s
    case Int(i) => IntText(i)
  }

  /** Why the request dies: PHP 8 refuses `"" + int` with a `TypeError`. */
  datatype Fault = NonNumericOperand

  /** `$v += n` for the values that reach it: null counts as 0, a timestamp
      is shifted, and the empty string raises a `TypeError`. */
  function AddSeconds(v: PhpValue, n: int): (r: Result<int, Fault>)
    requires v.Int? || !NonEmpty(v)
    ensures v.Null? ==> r == Success(n)
    ensures v.Int? ==> r == Success(v.i + n)
    ensures v.Str? ==> r == Failure(NonNumericOperand)
  {
    match v
    case Null => Success(n)
    case Int(i) => Success(i + n)
    case Str(_) => Failure(NonNumericOperand)
  }

  /** `120 * 60`: an event without an end lasts two hours. */
  const TwoHours: int := 120 * 60

  /** The two variables the loop carries from one event to the next. */
  datatype Carry = Carry(serviceStart: PhpValue, serviceEnd: PhpValue)

  /** Before the first event both are unset. */
  const Unset: Carry := Carry(Null, Null)

  /** The service lookup: a found service overwrites both variables; a
      failed one leaves whatever the previous event left. */
  function LookupService(carry: Carry, services: Table, serviceId: Value): (r: Carry)
    ensures First(services, Eq("id", serviceId)).None? ==> r == carry
    ensures First(services, Eq("id", serviceId)).Some? ==>
      var s := First(services, Eq("id", serviceId)).value;
      r == Carry(Raw(s, "startTime"), Raw(s, "endTime"))
  {
    match PdoQuery(services, "services", "*", ColumnIs("id", serviceId)).result
    case Some(s) => Carry(Raw(s, "startTime"), Raw(s, "endTime"))
    case None => carry
  }

  /** Lines 31-75: the carried variables after an event, `serviceEnd`
      holding the event's end timestamp, or the fault that ends the request. */
  function EventEnd(carry: Carry, event: Row, services: Table, toTime: ToTime): (r: Result<Carry, Fault>)
    ensures r.Success? ==> r.value.serviceEnd.Int?
  {
    var date, start, end := Cell(event, "date"), Cell(event, "startTime"), Cell(event, "endTime");
    if Cell(event, "serviceID") != "" then
      var c := LookupService(carry, services, Cell(event, "serviceID"));
      if end != "" then Success(c.(serviceEnd := Int(toTime(date + " " + end))))
      else if NonEmpty(c.serviceEnd) then Success(c.(serviceEnd := Int(toTime(date + " " + Interpolate(c.serviceEnd)))))
      else
        var base :=
          if start != "" then Int(toTime(date + " " + start))
          else if NonEmpty(c.serviceStart) then Int(toTime(date + " " + Interpolate(c.serviceStart)))
          else c.serviceEnd;
        match AddSeconds(base, TwoHours)
        case Failure(f) => Failure(f)
        case Success(t) => Success(c.(serviceEnd := Int(t)))
    else if end != "" then Success(carry.(serviceEnd := Int(toTime(date + " " + end))))
    else Success(carry.(serviceEnd := Int(toTime(date + " " + start) + TwoHours)))
  }

  /** `$unixFullDate` (today's midnight) and `$unixFullDateTime` (now). */
  datatype Clock = Clock(today: int, now: int)

  /** The WHERE expression of the schedule lookup. */
  function AttendanceOf(userId: Value, eventId: Value): Where
  {
    Where("userID = '" + userId + "' AND eventID = '" + eventId + "'",
          r => Eq("userID", userId)(r) && Eq("eventID", eventId)(r))
  }

  /** Lines 77-85: the user's attendance status for the event, "" without a row. */
  function AttendanceStatus(schedule: Table, userId: Value, eventId: Value): (r: string)
    ensures (forall j :: 0 <= j < |schedule| ==> !AttendanceOf(userId, eventId).holds(schedule[j])) ==> r == ""
    ensures First(schedule, AttendanceOf(userId, eventId).holds).Some? ==>
      r == Cell(First(schedule, AttendanceOf(userId, eventId).holds).value, "attendanceStatus")
    ensures r == "can" ==>
      exists j :: 0 <= j < |schedule| && Eq("userID", userId)(schedule[j]) && Eq("eventID", eventId)(schedule[j])
        && Eq("attendanceStatus", "can")(schedule[j])
  {
    match PdoQuery(schedule, "schedule", "*", AttendanceOf(userId, eventId)).result
    case Some(row) => Cell(row, "attendanceStatus")
    case None => ""
  }

  /** The tables and inputs one call reads. */
  datatype Request = Request(services: Table, schedule: Table, userId: Value, clock: Clock, toTime: ToTime)

  /** Line 87: the event counts when the user can attend, it is not before
      today, and it has not ended yet. */
  predicate Counts(q: Request, event: Row, end: int)
  {
    && AttendanceStatus(q.schedule, q.userId, Cell(event, "id")) == "can"
    && q.clock.today <= q.toTime(Cell(event, "date"))
    && q.clock.now <= end
  }

  /** One iteration of the `foreach`: the new carry and whether the event
      counts, or the fault that ends the request. */
  type Step = (Carry, Row) -> Result<(Carry, bool), Fault>

  /** The loop body of `get_total_registered_events` for one request. */
  function Visit(q: Request): (r: Step)
    ensures forall c, e :: r(c, e).Failure? <==> EventEnd(c, e, q.services, q.toTime).Failure?
    ensures forall c, e :: r(c, e).Success? ==> r(c, e).value.0 == EventEnd(c, e, q.services, q.toTime).value
    ensures forall c, e :: r(c, e).Success? && r(c, e).value.1 ==>
      AttendanceStatus(q.schedule, q.userId, Cell(e, "id")) == "can"
  {
    (carry: Carry, event: Row) =>
      match EventEnd(carry, event, q.services, q.toTime)
      case Failure(f) => Failure(f)
      case Success(c) => Success((c, Counts(q, event, c.serviceEnd.i)))
  }

  /** The count over `events` starting from `carry`: the reference
      definition, event by event from the front; a fault anywhere is the
      result. */
  function Tally(step: Step, carry: Carry, events: Table): (r: Result<nat, Fault>)
    ensures r.Success? ==> r.value <= |events|
    decreases |events|
  {
    if |events| == 0 then Success(0)
    else
      match step(carry, events[0])
      case Failure(f) => Failure(f)
      case Success(v) =>
        match Tally(step, v.0, events[1..])
        case Failure(f) => Failure(f)
        case Success(n) => Success(n + (if v.1 then 1 else 0))
  }

  /** Adds the events counted so far to the count of the rest. */
  function Shift(r: Result<nat, Fault>, k: nat): Result<nat, Fault>
  {
    match r
    case Success(n) => Success(n + k)
    case Failure(f) => Failure(f)
  }

  /** The events the SELECT fetches: those dated today or later (a NULL date
      never compares true). */
  function UpcomingEvents(today: int, toTime: ToTime): Where
  {
    Where("UNIX_TIMESTAMP(date) >= '" + IntText(today) + "'", r => "date" in r && toTime(r["date"]) >= today)
  }

  /** The `foreach` with its counter: runs `step` over the events in order,
      carrying the variables along, and stops at the first fault. */
  method CountEvents(step: Step, events: Table) returns (r: Result<nat, Fault>)
    ensures r == Tally(step, Unset, events)
    ensures r.Success? ==> r.value <= |events|
  {
    var total: nat := 0;
    var carry := Unset;
    var i := 0;
    while i < |events|
      invariant 0 <= i <= |events|
      invariant total <= i
      invariant Tally(step, Unset, events) == Shift(Tally(step, carry, events[i..]), total)
    {
      assert events[i..][0] == events[i] && events[i..][1..] == events[i + 1..];
      var v := step(carry, events[i]);
      if v.Failure? {
        return Failure(v.error);
      }
      carry := v.value.0;
      if v.value.1 {
        total := total + 1;
      }
      i := i + 1;
    }
    assert events[i..] == [];
    r := Success(total);
  }

  /** `get_total_registered_events($userID)`: the upcoming events, counted
      with the variables carried between iterations. */
  method TotalRegisteredEvents(events: Table, q: Request) returns (r: Result<nat, Fault>)
    ensures var fetched := PdoWhileQuery(events, "events", "*", UpcomingEvents(q.clock.today, q.toTime), "").result;
      && r == Tally(Visit(q), Unset, fetched)
      && (r.Success? ==> r.value <= |fetched| <= |events|)
  {
    var fetched := PdoWhileQuery(events, "events", "*", UpcomingEvents(q.clock.today, q.toTime), "").result;
    r := CountEvents(Visit(q), fetched);
  }

  /** Every fetched event is dated today or later, so the loop's own
      `$unixFullDate <= $tableDate` test never rejects one. */
  lemma FetchedAreUpcoming(events: Table, today: int, toTime: ToTime)
    ensures var fetched := PdoWhileQuery(events, "events", "*", UpcomingEvents(today, toTime), "").result;
      forall x :: x in fetched ==> today <= toTime(Cell(x, "date"))
  {
    var fetched := PdoWhileQuery(events, "events", "*", UpcomingEvents(today, toTime), "").result;
    forall x | x in fetched ensures today <= toTime(Cell(x, "date")) {
      assert multiset(fetched)[x] > 0;
    }
  }

  /** An event's own end time decides, whatever the service and whatever
      the previous events left behind. */
  lemma ExplicitEndWins(carry: Carry, event: Row, services: Table, toTime: ToTime)
    requires Cell(event, "endTime") != ""
    ensures EventEnd(carry, event, services, toTime).Success?
    ensures EventEnd(carry, event, services, toTime).value.serviceEnd
      == Int(toTime(Cell(event, "date") + " " + Cell(event, "endTime")))
  {
  }

  /** Without a service and an end time, an event lasts two hours from its
      start (from midnight when the start is missing). */
  lemma TwoHoursFromStart(carry: Carry, event: Row, services: Table, toTime: ToTime)
    requires Cell(event, "serviceID") == "" && Cell(event, "endTime") == ""
    ensures EventEnd(carry, event, services, toTime)
      == Success(carry.(serviceEnd := Int(toTime(Cell(event, "date") + " " + Cell(event, "startTime")) + TwoHours)))
  {
  }

  /** A found service's end time stands in for a missing event end time,
      whatever the event's start time; without either end, and without an
      event start, the service's start plus two hours is used. */
  lemma ServiceTimesFallBack(carry: Carry, event: Row, services: Table, toTime: ToTime)
    requires Cell(event, "serviceID") != "" && Cell(event, "endTime") == ""
    requires First(services, Eq("id", Cell(event, "serviceID"))).Some?
    ensures var s := First(services, Eq("id", Cell(event, "serviceID"))).value;
      var date := Cell(event, "date");
      && (Cell(s, "endTime") != "" ==>
            EventEnd(carry, event, services, toTime) == Success(Carry(Raw(s, "startTime"), Int(toTime(date + " " + s["endTime"])))))
      && (Cell(event, "startTime") == "" && Cell(s, "endTime") == "" && Cell(s, "startTime") != "" ==>
            EventEnd(carry, event, services, toTime) == Success(Carry(Raw(s, "startTime"), Int(toTime(date + " " + s["startTime"]) + TwoHours))))
  {
  }

  /** With a service but no end time anywhere, an event that has a start
      time lasts two hours from it. */
  lemma ServiceEventStartPlusTwoHours(carry: Carry, event: Row, services: Table, toTime: ToTime)
    requires Cell(event, "serviceID") != "" && Cell(event, "endTime") == "" && Cell(event, "startTime") != ""
    requires !NonEmpty(LookupService(carry, services, Cell(event, "serviceID")).serviceEnd)
    ensures var c := LookupService(carry, services, Cell(event, "serviceID"));
      EventEnd(carry, event, services, toTime)
        == Success(c.(serviceEnd := Int(toTime(Cell(event, "date") + " " + Cell(event, "startTime")) + TwoHours)))
  {
  }

  /** A found service with a NULL end and an empty or NULL start, for an
      event without times, gives the end `null + 7200`: 7200 seconds after
      the epoch, so such an event is never counted once that moment has
      passed. */
  lemma ServiceWithoutTimes(carry: Carry, event: Row, services: Table, toTime: ToTime)
    requires Cell(event, "serviceID") != "" && Cell(event, "endTime") == "" && Cell(event, "startTime") == ""
    requires First(services, Eq("id", Cell(event, "serviceID"))).Some?
    requires var s := First(services, Eq("id", Cell(event, "serviceID"))).value;
      Cell(s, "startTime") == "" && "endTime" !in s
    ensures var s := First(services, Eq("id", Cell(event, "serviceID"))).value;
      EventEnd(carry, event, services, toTime) == Success(Carry(Raw(s, "startTime"), Int(TwoHours)))
  {
  }

  /** The first event, whose service lookup fails and which has no times of
      its own, finds both variables unset and also ends at `null + 7200`. */
  lemma FirstEventMissingService(event: Row, services: Table, toTime: ToTime)
    requires Cell(event, "serviceID") != "" && Cell(event, "endTime") == "" && Cell(event, "startTime") == ""
    requires First(services, Eq("id", Cell(event, "serviceID"))).None?
    ensures EventEnd(Unset, event, services, toTime) == Success(Carry(Null, Int(TwoHours)))
  {
  }

  /** A service whose end time is stored as "" (not NULL), with no start
      time anywhere, ends the request with a `TypeError`. */
  lemma EmptyServiceEndFaults(carry: Carry, event: Row, services: Table, toTime: ToTime)
    requires Cell(event, "serviceID") != "" && Cell(event, "endTime") == "" && Cell(event, "startTime") == ""
    requires First(services, Eq("id", Cell(event, "serviceID"))).Some?
    requires var s := First(services, Eq("id", Cell(event, "serviceID"))).value;
      Eq("endTime", "")(s) && Cell(s, "startTime") == ""
    ensures EventEnd(carry, event, services, toTime) == Failure(NonNumericOperand)
  {
  }

  /** A failed service lookup reuses what the previous event left: with no
      end time of its own, the event's end is read from the previous
      event's end timestamp printed after its date. */
  lemma StaleServiceEnd(carry: Carry, event: Row, services: Table, toTime: ToTime, previous: int)
    requires Cell(event, "serviceID") != "" && Cell(event, "endTime") == ""
    requires First(services, Eq("id", Cell(event, "serviceID"))).None?
    requires carry.serviceEnd == Int(previous)
    ensures EventEnd(carry, event, services, toTime)
      == Success(carry.(serviceEnd := Int(toTime(Cell(event, "date") + " " + IntText(previous)))))
  {
  }

  /** An event the user has no "can" row for is never counted. */
  lemma NotAttendingNotCounted(q: Request, carry: Carry, event: Row)
    requires forall j :: 0 <= j < |q.schedule| ==>
      !(Eq("userID", q.userId)(q.schedule[j]) && Eq("attendanceStatus", "can")(q.schedule[j]))
    ensures Visit(q)(carry, event).Success? ==> !Visit(q)(carry, event).value.1
  {
  }

  /** A step that never counts gives a count of zero. */
  lemma {:induction false} TallyNeverCounting(step: Step, carry: Carry, events: Table)
    requires forall c: Carry, e: Row :: step(c, e).Success? ==> !step(c, e).value.1
    ensures Tally(step, carry, events).Success? ==> Tally(step, carry, events).value == 0
    decreases |events|
  {
    if |events| > 0 && step(carry, events[0]).Success? {
      TallyNeverCounting(step, step(carry, events[0]).value.0, events[1..]);
    }
  }

  /** Nobody is counted for events they have not said they can attend: with
      no "can" row for the user in the schedule, the count is zero. */
  lemma NoCanNoCount(q: Request, carry: Carry, events: Table)
    requires forall j :: 0 <= j < |q.schedule| ==>
      !(Eq("userID", q.userId)(q.schedule[j]) && Eq("attendanceStatus", "can")(q.schedule[j]))
    ensures Tally(Visit(q), carry, events).Success? ==> Tally(Visit(q), carry, events).value == 0
  {
    forall c: Carry, e: Row ensures Visit(q)(c, e).Success? ==> !Visit(q)(c, e).value.1 {
      NotAttendingNotCounted(q, c, e);
    }
    TallyNeverCounting(Visit(q), carry, events);
  }

  /** The carry after a prefix of events that does not fault. */
  function After(step: Step, carry: Carry, events: Table): Carry
    requires Tally(step, carry, events).Success?
    decreases |events|
  {
    if |events| == 0 then carry
    else After(step, step(carry, events[0]).value.0, events[1..])
  }

  /** The count is additive: counting a concatenation counts the first part,
      then the second from where the first left the carried variables. */
  lemma {:induction false} TallyAppend(step: Step, carry: Carry, a: Table, b: Table)
    requires Tally(step, carry, a).Success?
    ensures Tally(step, carry, a + b) == Shift(Tally(step, After(step, carry, a), b), Tally(step, carry, a).value)
    decreases |a|
  {
    if |a| == 0 {
      assert a + b == b;
    } else {
      assert (a + b)[0] == a[0] && (a + b)[1..] == a[1..] + b;
      TallyAppend(step, step(carry, a[0]).value.0, a[1..], b);
    }
  }

  // =====================================================================
  // initiate_password_recovery

  /** How the mail step of lines 114-122 ended: `send()` returned true,
      `send()` returned false (a mailer built without exceptions reports
      failure this way), or the mailer threw an exception with its `ErrorInfo`. */
  datatype Mail = Sent | ReturnedFalse | Threw(errorInfo: string)

  /** An exception that leaves `initiate_password_recovery` uncaught. */
  datatype Escape = MailerException(errorInfo: string)

  /** The effects of `initiate_password_recovery`: the tables it leaves, and
      the HTML it returns or the exception that escapes it. */
  datatype Recovery = Recovery(users: Table, logs: Table, outcome: Result<string, Escape>)

  /** `$user['email']` of the looked-up user; "" when there is no such user
      (indexing `false` gives null). */
  function RecipientEmail(users: Table, userId: Value): Value
  {
    match GetUserInfo(users, userId).result
    case Some(u) => Cell(u, "email")
    case None => ""
  }

  /** `"$user[firstName] $user[lastName]"`. */
  function RecipientName(users: Table, userId: Value): string
  {
    match GetUserInfo(users, userId).result
    case Some(u) => Cell(u, "firstName") + " " + Cell(u, "lastName")
    case None => " "
  }

  const SentNotice: string := "A password recovery link has been sent!"
  const FailedNotice: string := "This message could not be sent for some reason. Here is the exact error: <b>"

  /** The log entry's status and custom message (lines 124 and 129). */
  function MailLog(succeeded: bool, name: string): (string, string)
  {
    if succeeded then ("succeeded", "Send Password Reset Email: \"" + name + "\"")
    else ("failed", "Couldn't send Password Reset Email: \"" + name + "\"")
  }

  /** Line 125: the alert returned after `send()`. */
  function SentAlert(): string
  {
    ErrorMessage("warning", SentNotice, true)
  }

  /** Line 130: the alert the catch block returns, with the mailer's error. */
  function FailedAlert(errorInfo: string): string
  {
    ErrorMessage("danger", FailedNotice + errorInfo + "</b>", true)
  }

  /** Line 110: `UPDATE users SET token=? WHERE email = '...'`: every row
      with that email gets the token, keeping its other columns; the other
      rows are untouched. */
  function StoreToken(users: Table, email: Value, token: string): (r: Table)
    ensures |r| == |users|
    ensures forall i :: 0 <= i < |users| && !Eq("email", email)(users[i]) ==> r[i] == users[i]
    ensures forall i :: 0 <= i < |users| && Eq("email", email)(users[i]) ==>
      && "token" in r[i] && r[i]["token"] == token
      && r[i].Keys == users[i].Keys + {"token"}
      && forall k :: k in users[i] && k != "token" ==> k in r[i] && r[i][k] == users[i][k]
  {
    assert NoDuplicates(["token"]);
    SingleColumnSet("token");
    UpdateRows(users, Eq("email", email), ["token"], [token])
  }

  /** `StoreToken` is what the `pdoUpdate` call of line 110 leaves in the table. */
  lemma StoreTokenIsUpdate(users: Table, email: Value, token: string)
    ensures PdoUpdate(users, "users", ["token"], [token], ColumnIs("email", email)).result == Success(StoreToken(users, email, token))
  {
  }

  /** Lines 124 and 129: the log row of the mail attempt. */
  function LogMailAttempt(logs: Table, succeeded: bool, name: string, ctx: RequestContext): (r: Table)
    ensures |r| == |logs| + 1 && r[..|logs|] == logs
    ensures "activityStatus" in r[|logs|] && r[|logs|]["activityStatus"] == (if succeeded then "succeeded" else "failed")
    ensures "page" in r[|logs|] && r[|logs|]["page"] == "settings"
    ensures "actionType" in r[|logs|] && r[|logs|]["actionType"] == "email"
  {
    var entry := MailLog(succeeded, name);
    SettingsEmail();
    LogActionRow(logs, "settings", "email", entry.0, Some(entry.1), ctx);
    LogAction(logs, "settings", "email", entry.0, Some(entry.1), ctx).value.result
  }

  /** `initiate_password_recovery($userID)` with `random` what
      `random_bytes(32)` returned. The hex token is stored on every row
      sharing the user's email before the mail is tried. Whenever `send()`
      returns, true or false, the attempt is logged as succeeded and the
      "sent" warning is returned. The `catch (Exception $e)` of line 127
      names `Bubbycolditz\Nevi\Exception`, a class that does not exist,
      so a thrown mailer exception escapes: the token stays written and
      nothing is logged. */
  function InitiatePasswordRecovery(users: Table, logs: Table, userId: Value, random: seq<Byte>,
                                    mail: Mail, ctx: RequestContext): (r: Recovery)
    requires |random| == 32
    ensures r.users == StoreToken(users, RecipientEmail(users, userId), Bin2Hex(random))
    ensures mail.Threw? ==> r.logs == logs && r.outcome == Failure(MailerException(mail.errorInfo))
    ensures !mail.Threw? ==> |r.logs| == |logs| + 1 && r.logs[..|logs|] == logs
    ensures !mail.Threw? ==> "activityStatus" in r.logs[|logs|] && r.logs[|logs|]["activityStatus"] == "succeeded"
    ensures !mail.Threw? ==> r.outcome == Success(SentAlert())
  {
    var stored := StoreToken(users, RecipientEmail(users, userId), Bin2Hex(random));
    match mail
    case Threw(e) => Recovery(stored, logs, Failure(MailerException(e)))
    case _ => Recovery(stored, LogMailAttempt(logs, true, RecipientName(users, userId), ctx), Success(SentAlert()))
  }

  /** The evidently intended function, with the catch naming the global
      `\Exception`: a thrown mailer exception is logged as failed and
      answered with the danger alert carrying the mailer's error. */
  function InitiatePasswordRecoveryIntended(users: Table, logs: Table, userId: Value, random: seq<Byte>,
                                            mail: Mail, ctx: RequestContext): (r: Recovery)
    requires |random| == 32
    ensures r.users == StoreToken(users, RecipientEmail(users, userId), Bin2Hex(random))
    ensures |r.logs| == |logs| + 1 && r.logs[..|logs|] == logs
    ensures "activityStatus" in r.logs[|logs|] && r.logs[|logs|]["activityStatus"] == (if mail.Threw? then "failed" else "succeeded")
    ensures r.outcome.Success?
    ensures mail.Threw? ==> r.outcome.value == FailedAlert(mail.errorInfo)
    ensures !mail.Threw? ==> r.outcome.value == SentAlert()
  {
    var stored := StoreToken(users, RecipientEmail(users, userId), Bin2Hex(random));
    match mail
    case Threw(e) => Recovery(stored, LogMailAttempt(logs, false, RecipientName(users, userId), ctx), Success(FailedAlert(e)))
    case _ => Recovery(stored, LogMailAttempt(logs, true, RecipientName(users, userId), ctx), Success(SentAlert()))
  }

  /** The two agree whenever `send()` returns; they part exactly on a thrown
      exception, which the code as written lets escape unlogged. */
  lemma UncaughtMailerException(users: Table, logs: Table, userId: Value, random: seq<Byte>,
                                mail: Mail, ctx: RequestContext)
    requires |random| == 32
    ensures !mail.Threw? ==>
      InitiatePasswordRecovery(users, logs, userId, random, mail, ctx)
        == InitiatePasswordRecoveryIntended(users, logs, userId, random, mail, ctx)
    ensures mail.Threw? ==>
      && InitiatePasswordRecovery(users, logs, userId, random, mail, ctx).outcome.Failure?
      && InitiatePasswordRecoveryIntended(users, logs, userId, random, mail, ctx).outcome.Success?
      && |InitiatePasswordRecovery(users, logs, userId, random, mail, ctx).logs| == |logs|
      && |InitiatePasswordRecoveryIntended(users, logs, userId, random, mail, ctx).logs| == |logs| + 1
  {
  }

  /** The stored token is 64 lower-case hex digits that decode to the 32
      random bytes. */
  lemma RecoveryToken(random: seq<Byte>)
    requires |random| == 32
    ensures |Bin2Hex(random)| == 64 && IsLowerHex(Bin2Hex(random))
    ensures Hex2Bin(Bin2Hex(random)) == random
  {
    HexRoundTrip(random);
  }

  /** The token is written whether or not the mail goes out. */
  lemma TokenWrittenBeforeMail(users: Table, logs: Table, userId: Value, random: seq<Byte>,
                               mail: Mail, other: Mail, ctx: RequestContext)
    requires |random| == 32
    ensures InitiatePasswordRecovery(users, logs, userId, random, mail, ctx).users
         == InitiatePasswordRecovery(users, logs, userId, random, other, ctx).users
  {
  }

  /** The alerts tell the outcome: a dismissible warning with the notice
      after `send()`, a dismissible danger alert carrying the mailer's
      error from the catch block. */
  lemma RecoveryAlert(errorInfo: string)
    ensures StartsWith(SentAlert(), BoxHead("warning", true)) && Contains(SentAlert(), SentNotice)
    ensures StartsWith(FailedAlert(errorInfo), BoxHead("danger", true)) && Contains(FailedAlert(errorInfo), errorInfo)
  {
    ErrorMessageShape("warning", SentNotice, true);
    var m := FailedNotice + errorInfo + "</b>";
    ErrorMessageShape("danger", m, true);
    ContainsInConcat(FailedNotice, errorInfo, "</b>");
    ContainsTransitive(FailedAlert(errorInfo), m, errorInfo);
  }

  /** An unknown user id looks up the empty email, so the update of line
      110 writes the token to every row whose email is the empty string. */
  lemma UnknownUserTouchesBlankEmails(users: Table, userId: Value, token: string)
    requires forall j :: 0 <= j < |users| ==> !Eq("id", userId)(users[j])
    ensures RecipientEmail(users, userId) == ""
    ensures forall i :: 0 <= i < |users| && Eq("email", "")(users[i]) ==>
      StoreToken(users, RecipientEmail(users, userId), token)[i]["token"] == token
  {
    assert GetUserInfo(users, userId).result == None;
  }
}
